=== FILE: README.md ===
# LAHARZ distal inundation: a Dafny model

LAHARZ estimates the area a lahar, debris flow or rock avalanche of a given
volume can inundate. Each volume scenario comes with a cross-sectional area
budget and a planimetric area budget. Starting from a stream cell, a walker
follows the D8 flow-direction grid downstream. At every stream cell it traces
cross-sections perpendicular to the flow. Each cross-section fills the valley
from the channel upward until the budget is spent, and every cell it covers is
claimed in an ownership grid. The walker stops when the largest scenario has
spent its planimetric area. A separate merge tool combines the grids of all
runs into one grid per volume. A demonstration package adds angle-based
cross-sections, a bounded window of recent path cells and angle normalisation.

The model covers these modules:

- `Directions` (direction.dfy): the D8 code tables. These are the downstream
  move, the left seed of a section, the lateral step, the cell dimension, the
  checkerboard offset, and the chain of codes traced at one stream cell.
- `Grids` (grid.dfy): grids as row sequences, with NumPy's index rule. An
  index `i` on an axis of length `n` is accepted when `-n <= i < n` and wraps
  when negative. The module also provides cell counting.
- `Ownership` (ownership.dfy): the ownership grid `B` and the per-level
  tallies `planvals`. It holds the claim rule (`AppendCurrPointToPointArrays`)
  and the sweep back to background between runs.
- `Budgets` (budgets.dfy): the lists of remaining cross-sectional area and
  `Check4Pop`.
- `Faults` (faults.dfy): `IndexError`, a bad flow-direction code and a write to a closed file, returned
  as values.
- `CrossSection` (section.dfy): the window test, the next section cell, and
  `CalcCrossSection`, one pass of its loop at a time.
- `Walker` (walker.dfy): the main loop's walk down one stream. It traces at
  each cell, turns tallies into remaining planimetric area, prunes, stops or
  moves. It also covers the loop over start cells with the reset between runs.
- `Merge` (merge.dfy) and `TextLists` (textlist.dfy): the merge tool's volume
  loop and its `ConvertTxtToList`.
- `SectionAngle`, `PathSmoothing`, `DemoFlow` (angle_section.dfy,
  smoothing.dfy, demo_flow.dfy): the demonstration helpers.

Python floats are modelled as mathematical reals and Python ints as
unbounded integers. Python exceptions that end the program become a
`Failure` result.

Behaviour of the code that is easy to miss, which the model keeps:

- The `if` statements that choose the extra cross-section codes
  (distal_inundation.py:1327-1402) are not chained with `elif`. A diagonal
  code therefore traces five sections (`[2, 1, 4, 2, 8]` for code 2), not
  three.
- The left seed of a section (distal_inundation.py:739-762) and the
  downstream cell (distal_inundation.py:1573) are read without a window
  check. NumPy's negative-index wrap-around can therefore pick a cell on the
  far side of the grid, and an index past the end raises `IndexError`.
- After the stop flag is set (distal_inundation.py:1500-1512), the walker
  still moves and reads the next flow code (1520-1573). A run that stops at
  the grid edge can still fail with `IndexError`.
- The pruning step after each stream cell (distal_inundation.py:1482-1494)
  drops at most one scenario, the last one, whichever entry was negative.
- A pass that reaches the traverse limit while the largest scenario is
  exhausted closes the points file (distal_inundation.py:1510) and then
  writes to it again (1562-1564). Python raises `ValueError` there and
  nothing catches it, so the model ends the whole invocation with the
  `ClosedFileWrite` fault.

## Model

| member | source | states |
|---|---|---|
| Directions.Downstream | distal_inundation.py:1520-1549 | the downstream move goes to one of the eight neighbours, never the cell itself, and diagonally exactly for the diagonal codes |
| Directions.DownstreamOpposite | distal_inundation.py:1520-1549 | the opposite code is a code and moves exactly back |
| Directions.DownstreamInjective | distal_inundation.py:1520-1549 | distinct codes lead to distinct neighbours |
| Directions.LeftSeed | distal_inundation.py:739-762 | the left anchor of a section is the downstream move turned 90 degrees to the left, so the section is perpendicular to the flow |
| Directions.LateralStep | distal_inundation.py:610-633 | the lateral operator of `GetNextSectionCell` equals the left-seed offset, so both anchors move along the same line through the stream cell |
| Directions.CellDimension | distal_inundation.py:720-723 | a section's cell dimension is the cell diagonal exactly when its lateral step is diagonal, and the cell width otherwise |
| Directions.CheckerboardOffset | distal_inundation.py:1411-1431 | the extra cell of a diagonal code shares exactly one step of the downstream move: the row step for codes 8 and 128, the column step for codes 2 and 32 |
| Directions.Clockwise | distal_inundation.py:1327-1402 | the next octant clockwise is again a code and differs from the given one |
| Directions.Anticlockwise | distal_inundation.py:1327-1402 | the octant anticlockwise is a code, and turning clockwise from it gives back the original |
| Directions.TracedCodes | distal_inundation.py:1327-1404 | because the `if`s are not chained, a cardinal code traces itself and both adjacent octants; a diagonal code traces those three, then itself again and the octant two steps clockwise; every traced value is a code |
| Directions.TracedCodesTable | distal_inundation.py:1327-1404 | the traced codes spelled out for all eight codes |
| Directions.FireAllShape | distal_inundation.py:1327-1404 | running the eight unchained tests on any code traces the code and its two adjacent octants, and for a diagonal code also the code again and the octant two steps clockwise |
| Ownership.AppendCurrPoint | distal_inundation.py:552-564 | a claim sets the cell to the larger of its old value and the active level; no other cell changes; the grid only rises; grid and tallies stay in agreement; the tally total grows by one exactly when a background cell is claimed |
| Ownership.ClaimProperties | distal_inundation.py:552-564 | each of the three branches of the claim rule keeps grid and tallies in agreement and never lowers a cell |
| Ownership.ClaimTotal | distal_inundation.py:552-564 | a claim adds one to the total of the tallies exactly when the cell was background, and leaves the total alone when it moves a cell between levels or keeps it |
| Ownership.ClaimKeepsAgreement | distal_inundation.py:552-564 | every branch of the claim rule keeps each tally equal to the number of cells at its level |
| Ownership.ResetOwnership | distal_inundation.py:1599-1605 | the sweep keeps the grid's shape and leaves background and lower cells untouched |
| Ownership.ResetStartsFresh | distal_inundation.py:1599-1605 | after the sweep, a grid of background and claim levels is all background and agrees with all-zero tallies, so the next run starts with nothing claimed |
| Ownership.FreshConsistent | distal_inundation.py:1250-1252 | an all-background grid agrees with the fresh all-zero `planvals` |
| Ownership.SuffixIsAtLeast | distal_inundation.py:1438-1447 | with grid and tallies in agreement, the reversed prefix sums of `planvals` count the cells claimed at each level or higher |
| Budgets.PopWhile | distal_inundation.py:664-667 | the pop loop keeps a prefix of length `max(1, len - negcount)` |
| Budgets.Check4Pop | distal_inundation.py:658-668 | the result is a non-empty prefix; a one-entry list is untouched; a longer one loses one tail entry per negative entry, keeping at least one |
| Budgets.CountNegativeSorted | distal_inundation.py:658-663 | on a largest-first list the negatives are exactly the entries after the non-negative prefix |
| Budgets.Check4PopSorted | distal_inundation.py:658-668 | on a largest-first list the pop drops only negative entries, keeps the list largest-first, and leaves no negative behind a non-negative head |
| Budgets.Lower | distal_inundation.py:816-817 | every budget is lowered by exactly the same amount, and a largest-first list stays largest-first |
| Budgets.Consume | distal_inundation.py:816-820 | subtracting and popping keeps a non-empty prefix, each kept budget lowered by exactly the amount |
| Budgets.ConsumeSorted | distal_inundation.py:816-820 | lowering non-negative largest-first budgets by a non-negative area and popping lowers each kept budget by exactly that area and keeps the list largest-first and settled |
| CrossSection.CheckForWindowBoundaries | distal_inundation.py:583-591 | a cell inside the window is read from the raster; a cell outside leaves the anchor at its previous cell with elevation 99999.0 |
| CrossSection.GetNextSectionCell | distal_inundation.py:610-643 | an anchor moves by plus or minus the left-seed offset when that stays in the window, and otherwise stays put reading the edge elevation; either way it ends inside the window or where it was |
| CrossSection.Exhaust | distal_inundation.py:884-886 | every budget becomes the exhausted value and the list keeps its length |
| CrossSection.ClaimLeft | distal_inundation.py:800-801 | claiming the left anchor raises its cell to at least the active claim level, moves only the left anchor, and keeps the tracer's invariant |
| CrossSection.ClaimRight | distal_inundation.py:804-805 | claiming the right anchor raises its cell to at least the active claim level, moves only the right anchor, and keeps the tracer's invariant |
| CrossSection.Rise | distal_inundation.py:816-871 | the height a pass charges per unit of cell dimension is zero at the fill level, positive when an anchor lies below the fill level, and never negative |
| CrossSection.Depletion | distal_inundation.py:816-871 | the area a pass takes from every budget is zero at the fill level and never negative when cell dimensions are not negative |
| CrossSection.ExtendBaseline | distal_inundation.py:796-806 | an anchor at the fill level is claimed without consuming area or changing the fill level; the loop invariant is kept |
| CrossSection.FillBelow | distal_inundation.py:812-832 | an anchor below the fill level consumes the depth of the hole times the cell dimension from every budget; the fill level stays; the loop invariant is kept |
| CrossSection.RaiseFill | distal_inundation.py:838-879 | when both anchors are above the fill level, every budget pays the rise to the lower anchor times the section width so far; the fill level never falls |
| CrossSection.Pass | distal_inundation.py:796-879 | one branch of the tracer loop: at the fill level nothing is consumed, otherwise the budgets are lowered by the depletion and popped; the fill level and cell counter never fall; the grid only rises and stays in agreement with the tallies |
| CrossSection.TraceStep | distal_inundation.py:788-892 | a full pass keeps the invariant and advances the loop counter; an anchor at the window edge forces every budget to the exhausted value |
| CrossSection.PassMonotone | distal_inundation.py:796-879 | the branch part of a pass lowers every kept budget by the same non-negative depletion, which is zero at the fill level, and keeps the list largest-first with no negative entry behind a non-negative head |
| CrossSection.TraceStepMonotone | distal_inundation.py:788-892 | within a pass no budget grows; each kept budget is either exhausted or lowered by the same non-negative depletion; the list stays largest-first; the fill level does not fall |
| CrossSection.CalcCrossSection | distal_inundation.py:670-894 | tracing fails with `IndexError` exactly when a seed cell is outside NumPy's index range; otherwise the tallies keep their length, the grid only rises and stays bounded, and agreement with the tallies is kept |
| Walker.TraceCodes | distal_inundation.py:1319-1402 | tracing a list of codes succeeds exactly when every section of the list can be traced, and keeps the grid rising and in agreement with the tallies |
| Walker.TraceStreamCell | distal_inundation.py:1319-1431 | all sections of one stream cell, including the checkerboard one for a diagonal code, succeed exactly when each can be traced |
| Walker.RemainingPlanArea | distal_inundation.py:1438-1453 | the reverse-accumulate-reverse computation gives each scenario its plan area minus the area of all cells at its level or higher |
| Walker.RemainingIsUnclaimedArea | distal_inundation.py:1438-1453 | with grid and tallies in agreement, that remainder is the plan area minus the cells of the grid claimed at level `i + 2` or higher |
| Walker.NegativeCounted | distal_inundation.py:1482-1487 | the negative count is positive exactly when some entry is negative |
| Walker.PruneOnce | distal_inundation.py:1482-1494 | the three scenario lists lose their last entry exactly when more than one is active and some remaining area is negative; otherwise nothing changes |
| Walker.Survey | distal_inundation.py:1319-1453 | one stream cell's sections and remaining areas: success exactly when all are traceable; the remainder is computed from the grid after tracing |
| Walker.Conclude | distal_inundation.py:1482-1567 | prune once, stop exactly when the largest scenario is exhausted or the traverse limit is reached, give the reason that matches, and step downstream while under the limit |
| Walker.VisitStreamCell | distal_inundation.py:1306-1576 | one loop pass keeps the walk invariant and appends one record computed from the grid it leaves behind; a non-code flow value fails with `BadDirection`; `ClosedFileWrite` happens only on the pass at the traverse limit; success means every section of the cell was traceable; after a successful pass the walker stands on the cell the flow code points to (on the same cell when the pass reached the traverse limit), that cell can be indexed, and the code it holds is the one read from the flow grid |
| Walker.VisitKeepsInvariant | distal_inundation.py:1306-1576 | recording, pruning and moving after a successful survey keeps the walk invariant |
| Walker.LogExtends | distal_inundation.py:1482-1500 | a new record with at most one scenario fewer keeps the log shrinking by at most one and non-negative at the head before the last record |
| Walker.LogStep | distal_inundation.py:1438-1453 | because the grid only rises, each scenario's remaining area never grows from one stream cell to the next |
| Walker.OnFlowPathStep | distal_inundation.py:1520-1573 | a pass that moves the walker from a traced cell to the cell its flow code points to, then reads the code there, or that stops the walk, extends the traced path by that cell and keeps it a path along the flow grid |
| Walker.WalkStream | distal_inundation.py:1306-1576 | a run keeps grid and tallies in agreement, only raises cells, and records one entry per traversed cell, at most 9,000,001; the records never grow and lose at most one scenario per step; the run stops for plan exhaustion exactly when the last record's largest scenario is negative, and otherwise at the traverse limit; the last record is each scenario's planimetric area less the area of the cells the finished grid holds at its level or above; the run traced one cell per record, starting at the start cell, each traced cell holding one of the eight flow codes and each the downstream neighbour of the one before (`Walker.FlowPath`) |
| Walker.InundateAll | distal_inundation.py:1224-1605 | with the window set to the whole raster (lines 1037-1040), every saved grid has the raster's shape and holds only background and claim levels `2 .. n + 1`, where `n` is the number of volume scenarios; a complete invocation saves one grid per start cell; a failing run ends the whole loop, and the grids of the runs before it stay saved (lines 1590-1591), so fewer grids than start cells are returned |
| Merge.Blank | merge_runs.py:137-140 | the fresh merged grid has the raster's shape and holds 1 everywhere |
| Merge.Overlay | merge_runs.py:145-158 | scanning one run grid fails exactly when it marks a cell outside the shape; otherwise each cell it marks becomes `x + 2` and every other cell keeps its value |
| Merge.OverlayAll | merge_runs.py:145-158 | overlaying all run grids keeps the raster's shape |
| Merge.OverlayAllCharacterised | merge_runs.py:145-158 | overlaying the run grids fails exactly when one spills; otherwise a cell is `x + 2` exactly when some run grid marks it |
| Merge.MergeVolume | merge_runs.py:127-158 | a merged grid has the raster's shape |
| Merge.MergeVolumeCharacterised | merge_runs.py:127-158 | the merged grid of volume index `x` exists exactly when no run grid spills; a cell is `x + 2` exactly when some run holds a value above `x + 1` there, and 1 otherwise |
| Merge.MergeVolumeTwoValued | merge_runs.py:137-158 | every cell of a merged grid holds 1 or `x + 2` |
| Merge.MergeDependsOnlyOnSet | merge_runs.py:145-158 | the merge depends only on which run grids are listed, not on their order or repetitions |
| Merge.MergeNested | merge_runs.py:127-158 | merged grids are nested: a merge that succeeds at one volume index succeeds at the next, and a cell marked at the next is marked at this one |
| Merge.FailureAtFirst | merge_runs.py:154-157 | a spill at any volume index is already a spill at index 0 |
| Merge.MergeRuns | merge_runs.py:127-189 | the volume loop saves one merged grid per volume, in order, or fails before saving any, and it fails exactly when a run grid spills at index 0 |
| TextLists.RStrip | merge_runs.py:46 | the result is a prefix with no trailing newline, and only newlines were removed |
| TextLists.LStrip | merge_runs.py:47 | the result is a suffix with no leading space, and only spaces were removed |
| TextLists.SplitJoin | merge_runs.py:48 | splitting loses nothing: joining the fields restores the line, no field contains a comma, and there is one field more than there are commas |
| TextLists.JoinSplit | merge_runs.py:48 | joining comma-free fields and splitting again returns the fields |
| TextLists.ConvertTxtToList | merge_runs.py:44-49 | the list is the fields of the last line containing a comma, or the given list when no line has one |
| TextLists.LastCommaBeforeSkips | merge_runs.py:44-49 | every line after the last comma line found among the first `n` is free of commas, so the reader's last overwrite comes from that line |
| TextLists.LastLineWins | merge_runs.py:44-49 | the last line holding a comma is unique |
| PathSmoothing.WindowPush | laharz_demonstration/path_smoothing.py:135-139 | the point is last unless nothing is kept, which happens only for an empty window with a bound below 1; at most one element goes and it is the oldest; the others keep their order; a window within its bound grows to the smaller of its length plus one and the bound |
| PathSmoothing.PushAllKeepsMostRecent | laharz_demonstration/path_smoothing.py:135-139 | after any number of pushes, a window within its bound holds exactly the `maxlen` most recent points |
| PathSmoothing.NormalizeAngle | laharz_demonstration/path_smoothing.py:21-27 | the result lies in `(-pi, pi]` and differs from the input by a whole number of turns |
| PathSmoothing.TurnsStep | laharz_demonstration/path_smoothing.py:23-26 | each turn subtracted lowers the whole number of turns left by one, which is why both loops end on real-valued angles |
| PathSmoothing.RepresentativeUnique | laharz_demonstration/path_smoothing.py:21-27 | two angles in `(-pi, pi]` that differ by whole turns are equal, so the normalised angle is the only one of its class |
| PathSmoothing.AngleDiff | laharz_demonstration/path_smoothing.py:30-33 | the difference lies in `(-pi, pi]` and equals `a - b` up to whole turns |
| SectionAngle.Sign | laharz_demonstration/cross_section_angle.py:20-21 | the sign is -1, 0 or 1, negative exactly for negative input and positive exactly for positive input |
| SectionAngle.InBoundsIsInWindow | laharz_demonstration/cross_section_angle.py:24-25 | the demonstration's bounds test is the tracer's inclusive window test |
| SectionAngle.AreaCountsCells | laharz_demonstration/cross_section_angle.py:99-117 | after `i` rings the accumulated area is one cell area per cell taken from either ray |
| SectionAngle.AreaMonotone | laharz_demonstration/cross_section_angle.py:99-117 | with a non-negative cell area, more rings never hold less area |
| SectionAngle.ReachedIs | laharz_demonstration/cross_section_angle.py:104-107 | the number of targets met in list order is pinned down by the met prefix and the first unmet target |
| SectionAngle.ReachedFacts | laharz_demonstration/cross_section_angle.py:104-107 | every target before that count is at most the area, and the next one exceeds it |
| SectionAngle.ReachedMonotone | laharz_demonstration/cross_section_angle.py:104-107 | a larger area meets at least as many targets |
| SectionAngle.ReachedAscending | laharz_demonstration/cross_section_angle.py:104-107 | for ascending targets, a target is met exactly when it is at most the area |
| SectionAngle.Sweep | laharz_demonstration/cross_section_angle.py:104-107 | the inner loop records the ring against each newly met target, stops at the first target the area does not meet, and leaves other entries alone |
| SectionAngle.Ring | laharz_demonstration/cross_section_angle.py:99-117 | one ring takes a left cell and then a right cell when the rays have them, progresses exactly when one does, and keeps the hit list well-shaped with each met entry naming the first ring whose area reaches it |
| SectionAngle.TraceSymmetric | laharz_demonstration/cross_section_angle.py:93-117 | one entry per target; unmet entries (-1) form a suffix; met entries are ring indices below the longer ray's length, in non-decreasing order; with a non-negative cell area, an entry is unmet exactly when all cells together fall short, and a met entry names the first ring whose area meets the first `k + 1` targets |
| SectionAngle.AscendingHits | laharz_demonstration/cross_section_angle.py:93-117 | for ascending targets, a met entry names the first ring whose accumulated area is at least the target |
| DemoFlow.DownstreamNext | laharz_demonstration/run_demo_local_smoothing.py:26-45 | the step succeeds exactly for the eight codes, lands on the same neighbour as the walker's downstream move, and otherwise fails with the bad code |
| DemoFlow.DownstreamNextNeighbour | laharz_demonstration/run_demo_local_smoothing.py:26-45 | each step lands on one of the eight neighbours, diagonal exactly for diagonal codes; the opposite code steps back; distinct codes lead to distinct cells |

## Left out

- ArcGIS and all file I/O are not modelled: raster conversions, `.pts` output, `WriteHeader`, raster saving and attribute tables. The model takes the arrays and lists as values.
- `CalcArea`, `CalcCellDimensions`, `StdErrModMean`, `CalcTime` and the distal `ConvertTxtToList` are not modelled. They compute inputs (area budgets, cell sizes, confidence limits, timing text) that the model takes as parameters.
- The confidence-limit branch of the distal setup is not modelled. It lies outside the loops modelled here.
- Timing is not modelled: `time.clock` and `time.process_time`, and the elapsed-time messages. In particular, `merge_runs.py` line 20 calls `time.clock`, which recent Python versions no longer provide. The model assumes the module loads.
- The walker's `cellTraverseCount > 90000000` break is left out. The walker always stops at 9,000,000 cells first, so this break can never fire.
- The starting-cell search in `startpts_g` is not modelled, nor is its reset to 1. `Walker.InundateAll` takes the start cells and the resulting all-background grid as inputs.
- `dda_ray`, `_atan2`, `estimate_tangent_angle`, `compute_normal_angle` and `rc_to_xy` are not modelled, because they depend on floating-point trigonometry. `SectionAngle.TraceSymmetric` takes the two rays as lists of cells.
- The other tools of the repository (proximal zone, surface hydrology, stream network, raster-to-shapefile conversion, coefficient setting) are not part of this model.
- Floating-point rounding is not modelled. All areas, elevations and angles are reals, and `pi` is a positive parameter. In particular, `normalize_angle` never ends on an infinite angle, or on one so large (about 1e17) that subtracting `2 pi` rounds back to the same float; on reals both of its loops always end.
- CrossSection.CalcCrossSection: states only the invariants of the whole trace (failure condition, tally length, rising and bounded grid, agreement) and not the final grid cell by cell. The per-pass behaviour is stated by `CrossSection.Pass` and `CrossSection.TraceStep`.
- Walker.InundateAll: states the shape and the value range of each saved grid, not which cells each run claims. No member states which cells a run claims, because the final grid of `CrossSection.CalcCrossSection` is itself not stated cell by cell. `Walker.WalkStream` ties the last record of a run to the cells of its finished grid.
- SectionAngle.TraceSymmetric: the meaning of each entry in terms of accumulated area is stated only for a non-negative cell area. With a negative cell area the area shrinks as cells are added, so only the structural facts are stated.
- SectionAngle.Sign: a NaN input is not modelled. The source returns 0 for it, and reals have no NaN.

=== FILE: angle_section.dfy ===
/** The angle-based symmetric cross-section of the path-smoothing
    demonstration: two rays of cells leave a centre cell in opposite
    directions, and the section grows one ring at a time (a cell from the
    left ray, then one from the right) until the accumulated planimetric
    area has reached each target area in turn.

    How the rays are drawn (the grid DDA along a real angle) is not part of
    this model: the rays arrive as the lists of cells they visited. */
module SectionAngle {
  import CrossSection

  /** `_sign`: -1, 0 or 1 as `x` is negative, zero or positive. */
  function Sign(x: real): (s: int)
    ensures s == -1 || s == 0 || s == 1
    ensures s < 0 <==> x < 0.0
    ensures s > 0 <==> x > 0.0
    ensures s as real * x >= 0.0
  {
    if x < 0.0 then -1 else if x > 0.0 then 1 else 0
  }

  /** `_in_bounds`: inclusive bounds on the row and the column. */
  predicate InBounds(r: int, c: int, wXmin: int, wXmax: int, wYmin: int, wYmax: int)
  {
    wXmin <= r <= wXmax && wYmin <= c <= wYmax
  }

  /** The demonstration's bounds test is the inundation tracer's window
      test: both bound rows and columns inclusively. */
  lemma InBoundsIsInWindow(r: int, c: int, wXmin: int, wXmax: int, wYmin: int, wYmax: int)
    ensures InBounds(r, c, wXmin, wXmax, wYmin, wYmax) <==>
            CrossSection.InWindow(CrossSection.Window(wXmin, wXmax, wYmin, wYmax), r, c)
    ensures InBounds(r, c, wXmin, wXmax, wYmin, wYmax) ==> wXmin <= wXmax && wYmin <= wYmax
  {
  }

  function Min(a: int, b: int): int
  {
    if a < b then a else b
  }

  function Max(a: int, b: int): int
  {
    if a < b then b else a
  }

  /** The area accumulated after `rings` complete rings, in the order the
      tracer adds it: ring `j` adds a left cell when the left ray has one
      and then a right cell when the right ray has one. */
  function Area(rings: nat, nLeft: nat, nRight: nat, cellArea: real): real
  {
    if rings == 0 then 0.0
    else
      var j := rings - 1;
      Area(j, nLeft, nRight, cellArea) + (if j < nLeft then cellArea else 0.0) + (if j < nRight then cellArea else 0.0)
  }

  /** The accumulated area is one cell area for every cell taken so far. */
  lemma {:induction false} AreaCountsCells(rings: nat, nLeft: nat, nRight: nat, cellArea: real)
    ensures Area(rings, nLeft, nRight, cellArea) == (Min(rings, nLeft) + Min(rings, nRight)) as real * cellArea
  {
    if rings > 0 {
      AreaCountsCells(rings - 1, nLeft, nRight, cellArea);
    }
  }

  /** With a non-negative cell area, more rings never hold less area. */
  lemma {:induction false} AreaMonotone(i: nat, j: nat, nLeft: nat, nRight: nat, cellArea: real)
    requires i <= j && cellArea >= 0.0
    ensures Area(i, nLeft, nRight, cellArea) <= Area(j, nLeft, nRight, cellArea)
    decreases j - i
  {
    if i < j {
      AreaMonotone(i, j - 1, nLeft, nRight, cellArea);
    }
  }

  /** How many targets, taken in list order, an area reaches: the length of
      the longest prefix of `ts` every element of which is at most `a`. */
  function Reached(ts: seq<real>, a: real): (p: nat)
    ensures p <= |ts|
  {
    if ts == [] || ts[0] > a then 0 else 1 + Reached(ts[1..], a)
  }

  /** `Reached` is pinned down by its two defining facts: every target
      before `p` is reached, and the one at `p` (if any) is not. */
  lemma {:induction false} ReachedIs(ts: seq<real>, a: real, p: nat)
    requires p <= |ts|
    requires forall k :: 0 <= k < p ==> ts[k] <= a
    requires p == |ts| || ts[p] > a
    ensures Reached(ts, a) == p
  {
    if p > 0 {
      assert ts[0] <= a;
      ReachedIs(ts[1..], a, p - 1);
    }
  }

  /** Conversely, the targets before `Reached` are all at most `a`, and the
      next one exceeds it. */
  lemma {:induction false} ReachedFacts(ts: seq<real>, a: real)
    ensures forall k :: 0 <= k < Reached(ts, a) ==> ts[k] <= a
    ensures Reached(ts, a) == |ts| || ts[Reached(ts, a)] > a
  {
    if ts != [] && ts[0] <= a {
      ReachedFacts(ts[1..], a);
      forall k | 0 <= k < Reached(ts, a)
        ensures ts[k] <= a
      {
        if k > 0 {
          assert ts[k] == ts[1..][k - 1];
        }
      }
    }
  }

  /** A larger area reaches at least as many targets. */
  lemma {:induction false} ReachedMonotone(ts: seq<real>, a: real, b: real)
    requires a <= b
    ensures Reached(ts, a) <= Reached(ts, b)
  {
    if ts != [] && ts[0] <= a {
      ReachedMonotone(ts[1..], a, b);
    }
  }

  predicate Ascending(ts: seq<real>)
  {
    forall i, j :: 0 <= i < j < |ts| ==> ts[i] <= ts[j]
  }

  /** For targets in ascending order the prefix rule is plain comparison:
      a target is reached exactly when it is at most the area. */
  lemma ReachedAscending(ts: seq<real>, a: real)
    requires Ascending(ts)
    ensures forall k :: 0 <= k < |ts| ==> (k < Reached(ts, a) <==> ts[k] <= a)
  {
    ReachedFacts(ts, a);
  }

  /** One accumulation step of the inner loop: with the area already raised,
      move the target index past every target, in order, the area now
      reaches, recording ring `ring` against each. */
  method Sweep(ts: seq<real>, hits: seq<int>, t: nat, area: real, ring: nat) returns (hits': seq<int>, t': nat)
    requires |hits| == |ts| && t <= |ts|
    requires forall k :: t <= k < |ts| ==> hits[k] == -1
    ensures t <= t' <= |ts| && |hits'| == |ts|
    ensures forall k :: 0 <= k < |ts| ==> hits'[k] == if t <= k < t' then ring else hits[k]
    ensures forall k :: t <= k < t' ==> ts[k] <= area
    ensures t' == |ts| || ts[t'] > area
  {
    hits', t' := hits, t;
    while t' < |ts| && area >= ts[t']
      invariant t <= t' <= |ts| && |hits'| == |ts|
      invariant forall k :: 0 <= k < |ts| ==> hits'[k] == if t <= k < t' then ring else hits[k]
      invariant forall k :: t <= k < t' ==> ts[k] <= area
    {
      if hits'[t'] == -1 {
        hits' := hits'[t' := ring];
      }
      t' := t' + 1;
    }
  }

  /** The structural facts about the hit list, whatever the cell area: one
      entry per target, the unmet targets (-1) form a suffix, and the met
      ones carry ring indices below `rings`, in non-decreasing order. */
  predicate HitsShape(hits: seq<int>, met: nat, rings: nat)
  {
    && met <= |hits|
    && (forall k :: met <= k < |hits| ==> hits[k] == -1)
    && (forall k :: 0 <= k < met ==> 0 <= hits[k] < rings)
    && (forall a, b :: 0 <= a < b < met ==> hits[a] <= hits[b])
  }

  /** What a met entry means when cells have non-negative area: target `k`
      is met at ring `h` when ring `h + 1` is the first whose accumulated
      area reaches the first `k + 1` targets. */
  predicate HitMeaning(ts: seq<real>, k: nat, h: int, nLeft: nat, nRight: nat, cellArea: real)
  {
    h >= 0 &&
    k < Reached(ts, Area(h + 1, nLeft, nRight, cellArea)) &&
    (h == 0 || Reached(ts, Area(h, nLeft, nRight, cellArea)) <= k)
  }

  /** The accumulation loop of `trace_cross_section_symmetric`: given the
      cells of the left and the right ray, the target areas and the area of
      one cell, the ring at which each target is met, or -1 when the rays
      run out first. */
  method TraceSymmetric<P>(left: seq<P>, right: seq<P>, targets: seq<real>, cellArea: real) returns (hits: seq<int>)
    ensures |hits| == |targets|
    ensures forall k :: 0 <= k < |hits| ==> hits[k] == -1 || 0 <= hits[k] < Max(|left|, |right|)
    ensures forall a, b :: 0 <= a < b < |hits| && hits[a] == -1 ==> hits[b] == -1
    ensures forall a, b :: 0 <= a < b < |hits| && hits[b] != -1 ==> 0 <= hits[a] <= hits[b]
    ensures cellArea >= 0.0 ==>
              forall k :: 0 <= k < |hits| ==>
                (hits[k] == -1 <==> Max(|left|, |right|) == 0 ||
                                    Reached(targets, Area(Max(|left|, |right|), |left|, |right|, cellArea)) <= k)
    ensures cellArea >= 0.0 ==>
              forall k :: 0 <= k < |hits| && hits[k] != -1 ==> HitMeaning(targets, k, hits[k], |left|, |right|, cellArea)
  {
    var nL, nR := |left|, |right|;
    var rings := Max(nL, nR);
    var area := 0.0;
    hits := seq(|targets|, _ => -1);
    var t: nat := 0;
    var i: nat := 0;
    while t < |targets| && (i < nL || i < nR)
      invariant i <= rings && t <= |targets| && |hits| == |targets|
      invariant HitsShape(hits, t, i)
      invariant area == Area(i, nL, nR, cellArea)
      invariant i == 0 ==> t == 0
      invariant cellArea >= 0.0 ==> forall k :: 0 <= k < t ==> targets[k] <= area
      invariant cellArea >= 0.0 && i > 0 ==> t == |targets| || targets[t] > area
      invariant cellArea >= 0.0 ==> forall k :: 0 <= k < t ==> HitMeaning(targets, k, hits[k], nL, nR, cellArea)
      decreases rings - i
    {
      var progressed;
      hits, t, area, progressed := Ring(targets, hits, t, area, i, nL, nR, cellArea);
      if !progressed {
        break;
      }
      i := i + 1;
    }
    if cellArea >= 0.0 {
      Conclusion(targets, hits, t, i, nL, nR, cellArea);
    }
  }

  /** One ring of the accumulation loop: a left cell when the left ray has
      one, then a right cell when the right ray has one, each followed by a
      sweep over the targets the area now reaches. */
  method Ring(targets: seq<real>, hits: seq<int>, t: nat, area: real, i: nat, nL: nat, nR: nat, cellArea: real)
    returns (hits': seq<int>, t': nat, area': real, progressed: bool)
    requires t <= |targets| && |hits| == |targets|
    requires HitsShape(hits, t, i)
    requires area == Area(i, nL, nR, cellArea)
    requires i == 0 ==> t == 0
    requires cellArea >= 0.0 ==> forall k :: 0 <= k < t ==> targets[k] <= area
    requires cellArea >= 0.0 && i > 0 ==> t == |targets| || targets[t] > area
    requires cellArea >= 0.0 ==> forall k :: 0 <= k < t ==> HitMeaning(targets, k, hits[k], nL, nR, cellArea)
    ensures progressed <==> i < nL || i < nR
    ensures progressed ==>
              && t' <= |targets| && |hits'| == |targets|
              && HitsShape(hits', t', i + 1)
              && area' == Area(i + 1, nL, nR, cellArea)
              && (cellArea >= 0.0 ==> forall k :: 0 <= k < t' ==> targets[k] <= area')
              && (cellArea >= 0.0 ==> t' == |targets| || targets[t'] > area')
              && (cellArea >= 0.0 ==> forall k :: 0 <= k < t' ==> HitMeaning(targets, k, hits'[k], nL, nR, cellArea))
  {
    hits', t', area', progressed := hits, t, area, false;
    if i < nL {
      area' := area' + cellArea;
      progressed := true;
      hits', t' := Sweep(targets, hits', t', area', i);
    }
    ghost var t1, area1 := t', area';
    if i < nR {
      area' := area' + cellArea;
      progressed := true;
      hits', t' := Sweep(targets, hits', t', area', i);
    }
    if progressed && cellArea >= 0.0 {
      RingKeepsMeaning(targets, hits, hits', t, t1, t', area, area1, area', i, nL, nR, cellArea);
    }
  }

  /** One ring keeps the meaning of every met entry: the old ones are
      untouched and the new ones, marked with ring `i`, lie between what the
      area before and after the ring reaches. */
  lemma RingKeepsMeaning(ts: seq<real>, hits0: seq<int>, hits: seq<int>, t0: nat, t1: nat, t: nat,
                         area0: real, area1: real, area: real, i: nat, nL: nat, nR: nat, cellArea: real)
    requires cellArea >= 0.0 && t0 <= t1 <= t <= |ts| && |hits0| == |ts| == |hits|
    requires i < nL || i < nR
    requires area0 == Area(i, nL, nR, cellArea) && area == Area(i + 1, nL, nR, cellArea)
    requires area0 <= area1 <= area
    requires i == 0 ==> t0 == 0
    requires forall k :: 0 <= k < t0 ==> ts[k] <= area0
    requires i > 0 ==> t0 == |ts| || ts[t0] > area0
    requires forall k :: t0 <= k < t1 ==> ts[k] <= area1
    requires forall k :: t1 <= k < t ==> ts[k] <= area
    requires t == |ts| || ts[t] > area
    requires forall k :: 0 <= k < |ts| ==> hits[k] == if t0 <= k < t then i else hits0[k]
    requires forall k :: 0 <= k < t0 ==> HitMeaning(ts, k, hits0[k], nL, nR, cellArea)
    ensures forall k :: 0 <= k < t ==> ts[k] <= area
    ensures forall k :: 0 <= k < t ==> HitMeaning(ts, k, hits[k], nL, nR, cellArea)
  {
    assert forall k :: 0 <= k < t ==> ts[k] <= area;
    ReachedIs(ts, area, t);
    if i > 0 {
      ReachedIs(ts, area0, t0);
    }
  }

  /** After the loop, an entry is unmet exactly when the whole sweep did
      not reach its target (or there were no cells at all). */
  lemma Conclusion(ts: seq<real>, hits: seq<int>, t: nat, i: nat, nL: nat, nR: nat, cellArea: real)
    requires cellArea >= 0.0 && |hits| == |ts| && t <= |ts| && i <= Max(nL, nR)
    requires !(t < |ts| && (i < nL || i < nR))
    requires HitsShape(hits, t, i)
    requires i == 0 ==> t == 0
    requires forall k :: 0 <= k < t ==> ts[k] <= Area(i, nL, nR, cellArea)
    requires i > 0 ==> t == |ts| || ts[t] > Area(i, nL, nR, cellArea)
    ensures forall k :: 0 <= k < |hits| ==>
              (hits[k] == -1 <==> Max(nL, nR) == 0 || Reached(ts, Area(Max(nL, nR), nL, nR, cellArea)) <= k)
  {
    var m := Max(nL, nR);
    if m > 0 {
      if i == m {
        ReachedIs(ts, Area(i, nL, nR, cellArea), t);
      } else {
        assert t == |ts|;
        AreaMonotone(i, m, nL, nR, cellArea);
        assert forall k :: 0 <= k < t ==> ts[k] <= Area(m, nL, nR, cellArea);
        ReachedIs(ts, Area(m, nL, nR, cellArea), t);
      }
    } else {
      assert t == 0;
    }
  }

  /** For ascending targets, with a non-negative cell area, a met entry
      names the first ring whose accumulated area is at least the target,
      and an entry is unmet exactly when all cells together fall short. */
  lemma AscendingHits(ts: seq<real>, hits: seq<int>, nL: nat, nR: nat, cellArea: real)
    requires Ascending(ts) && cellArea >= 0.0 && |hits| == |ts|
    requires forall k :: 0 <= k < |hits| ==>
               (hits[k] == -1 <==> Max(nL, nR) == 0 || Reached(ts, Area(Max(nL, nR), nL, nR, cellArea)) <= k)
    requires forall k :: 0 <= k < |hits| && hits[k] != -1 ==> HitMeaning(ts, k, hits[k], nL, nR, cellArea)
    ensures forall k :: 0 <= k < |hits| ==>
              (hits[k] == -1 <==> Max(nL, nR) == 0 || ts[k] > Area(Max(nL, nR), nL, nR, cellArea))
    ensures forall k :: 0 <= k < |hits| && hits[k] != -1 ==>
              0 <= hits[k] && ts[k] <= Area(hits[k] + 1, nL, nR, cellArea) &&
              (hits[k] == 0 || Area(hits[k], nL, nR, cellArea) < ts[k])
  {
    forall k | 0 <= k < |hits|
      ensures hits[k] == -1 <==> Max(nL, nR) == 0 || ts[k] > Area(Max(nL, nR), nL, nR, cellArea)
      ensures hits[k] != -1 ==>
              0 <= hits[k] && ts[k] <= Area(hits[k] + 1, nL, nR, cellArea) &&
              (hits[k] == 0 || Area(hits[k], nL, nR, cellArea) < ts[k])
    {
      ReachedAscending(ts, Area(Max(nL, nR), nL, nR, cellArea));
      if hits[k] != -1 {
        ReachedAscending(ts, Area(hits[k] + 1, nL, nR, cellArea));
        if hits[k] > 0 {
          ReachedAscending(ts, Area(hits[k], nL, nR, cellArea));
        }
      }
    }
  }
}

=== FILE: budgets.dfy ===
/** Lists of remaining cross-section areas ("budgets"), one per active volume
    scenario, largest first. The tracer lowers every entry by the same amount
    and then drops exhausted scenarios from the tail (`Check4Pop`). */
module Budgets {

  /** Largest budget first. */
  predicate NonIncreasing(b: seq<real>)
  {
    forall i, j :: 0 <= i < j < |b| ==> b[i] >= b[j]
  }

  /** The number of strictly negative entries. */
  function CountNegative(b: seq<real>): nat
  {
    if b == [] then 0 else (if b[0] < 0.0 then 1 else 0) + CountNegative(b[1..])
  }

  /** The number of leading entries that are not negative. */
  function NonNegativePrefix(b: seq<real>): (p: nat)
    ensures p <= |b|
    ensures forall i :: 0 <= i < p ==> b[i] >= 0.0
    ensures p < |b| ==> b[p] < 0.0
  {
    if b == [] || b[0] < 0.0 then 0 else 1 + NonNegativePrefix(b[1..])
  }

  /** The pop loop: drop the last entry while there are negatives left to
      account for and more than one entry remains. */
  function PopWhile(b: seq<real>, negcount: nat): (r: seq<real>)
    requires |b| >= 1
    ensures r == b[..if |b| - negcount >= 1 then |b| - negcount else 1]
    decreases negcount
  {
    if negcount > 0 && |b| > 1 then PopWhile(b[..|b| - 1], negcount - 1) else b
  }

  /** Drop one tail entry per negative entry, keeping at least one entry; a
      one-entry list is left alone. */
  function Check4Pop(b: seq<real>): (r: seq<real>)
    requires |b| >= 1
    ensures 1 <= |r| <= |b| && r == b[..|r|]
    ensures |b| == 1 ==> r == b
    ensures |b| > 1 ==> |r| == if |b| - CountNegative(b) >= 1 then |b| - CountNegative(b) else 1
  {
    var negcount := if |b| > 1 then CountNegative(b) else 0;
    PopWhile(b, negcount)
  }

  lemma {:induction false} CountNegativeSorted(b: seq<real>)
    requires NonIncreasing(b)
    ensures CountNegative(b) == |b| - NonNegativePrefix(b)
  {
    if b != [] {
      CountNegativeSorted(b[1..]);
      if b[0] < 0.0 {
        assert NonNegativePrefix(b[1..]) == 0 by {
          if |b| > 1 {
            assert b[1..][0] == b[1] <= b[0];
          }
        }
      }
    }
  }

  /** On a largest-first list the pop removes exactly the negative tail:
      every dropped entry was negative, the kept list is still largest-first,
      and if its head is not negative then nothing negative is kept. */
  lemma Check4PopSorted(b: seq<real>)
    requires |b| >= 1 && NonIncreasing(b)
    ensures NonIncreasing(Check4Pop(b))
    ensures forall i :: |Check4Pop(b)| <= i < |b| ==> b[i] < 0.0
    ensures Check4Pop(b)[0] >= 0.0 ==> forall i :: 0 <= i < |Check4Pop(b)| ==> Check4Pop(b)[i] >= 0.0
  {
    CountNegativeSorted(b);
    var p := NonNegativePrefix(b);
    var r := Check4Pop(b);
    if p == 0 {
      assert |r| == 1;
    } else {
      assert |r| == p;
    }
  }

  /** Every entry lowered by the same amount. */
  function Lower(b: seq<real>, amount: real): (r: seq<real>)
    ensures |r| == |b|
    ensures NonIncreasing(b) ==> NonIncreasing(r)
    ensures forall i :: 0 <= i < |b| ==> b[i] - r[i] == amount
  {
    seq(|b|, i requires 0 <= i < |b| => b[i] - amount)
  }

  /** A budget list whose head is not negative has no negative entry. */
  predicate Settled(b: seq<real>)
  {
    |b| >= 1 && (b[0] >= 0.0 ==> forall i :: 0 <= i < |b| ==> b[i] >= 0.0)
  }

  /** Lower every budget by `amount` and drop exhausted scenarios. */
  function Consume(b: seq<real>, amount: real): (r: seq<real>)
    requires |b| >= 1
    ensures 1 <= |r| <= |b|
    ensures forall i :: 0 <= i < |r| ==> r[i] == b[i] - amount
  {
    Check4Pop(Lower(b, amount))
  }

  /** Consuming a non-negative amount from a largest-first list of
      non-negative budgets lowers every kept budget by exactly that amount,
      keeps the list largest-first, and leaves no negative entry behind a
      non-negative head. */
  lemma ConsumeSorted(b: seq<real>, amount: real)
    requires |b| >= 1 && NonIncreasing(b)
    requires forall i :: 0 <= i < |b| ==> b[i] >= 0.0
    requires amount >= 0.0
    ensures |Consume(b, amount)| <= |b|
    ensures forall i :: 0 <= i < |Consume(b, amount)| ==> Consume(b, amount)[i] == b[i] - amount
    ensures NonIncreasing(Consume(b, amount)) && Settled(Consume(b, amount))
  {
    Check4PopSorted(Lower(b, amount));
  }
}

=== FILE: demo_flow.dfy ===
/** The downstream step of the path-smoothing demonstration, which builds
    a short path by following D8 flow-direction codes from a start cell. */
module DemoFlow {
  import opened Directions
  import opened Faults

  /** `downstream_next_rc`: the cell one step downstream of `(r, c)`, or a
      `BadDirection` fault (the source raises `ValueError`) for any value
      that is not one of the eight codes. */
  function DownstreamNext(r: int, c: int, flowDir: int): (res: Result<(int, int)>)
    ensures res.Success? <==> IsCode(flowDir)
    ensures res.Failure? ==> res.fault == BadDirection(flowDir)
    ensures res.Success? ==>
              res.value == (r + Downstream(flowDir).dr, c + Downstream(flowDir).dc)
  {
    if flowDir == 1 then Success((r, c + 1))
    else if flowDir == 2 then Success((r + 1, c + 1))
    else if flowDir == 4 then Success((r + 1, c))
    else if flowDir == 8 then Success((r + 1, c - 1))
    else if flowDir == 16 then Success((r, c - 1))
    else if flowDir == 32 then Success((r - 1, c - 1))
    else if flowDir == 64 then Success((r - 1, c))
    else if flowDir == 128 then Success((r - 1, c + 1))
    else Failure(BadDirection(flowDir))
  }

  /** Every step lands on one of the eight neighbours, a diagonal one
      exactly for the diagonal codes; the opposite code steps straight back;
      distinct codes lead to distinct neighbours. */
  lemma DownstreamNextNeighbour(r: int, c: int, flowDir: int, other: int)
    requires IsCode(flowDir)
    ensures var next := DownstreamNext(r, c, flowDir).value;
            && -1 <= next.0 - r <= 1 && -1 <= next.1 - c <= 1 && next != (r, c)
            && (IsDiagonal(flowDir) <==> next.0 != r && next.1 != c)
            && DownstreamNext(next.0, next.1, Opposite(flowDir)) == Success((r, c))
            && (IsCode(other) && other != flowDir ==> DownstreamNext(r, c, other).value != next)
  {
    DownstreamOpposite(flowDir);
    if IsCode(other) && other != flowDir {
      DownstreamInjective(flowDir, other);
    }
  }
}

=== FILE: direction.dfy ===
/** The eight D8 flow-direction codes and the tables the inundation engine
    keys on them: the downstream move, the left seed of a cross-section,
    the lateral step, the cell dimension, the checkerboard offset and the
    sequence of codes traced at one stream cell.

    Rows grow downward and columns grow to the right, so code 1 (east) moves
    one column right and code 4 (south) moves one row down. */
module Directions {

  /** A displacement in rows and columns. */
  datatype Offset = Offset(dr: int, dc: int)

  /** The eight codes; each is one bit, one compass octant. */
  predicate IsCode(code: int)
  {
    code == 1 || code == 2 || code == 4 || code == 8 || code == 16 || code == 32 || code == 64 || code == 128
  }

  /** The codes whose flow runs along a cell diagonal. */
  predicate IsDiagonal(code: int)
  {
    code == 2 || code == 8 || code == 32 || code == 128
  }

  /** Turn 90 degrees to the left when facing along `o` (rows grow downward). */
  function TurnLeft(o: Offset): Offset
  {
    Offset(-o.dc, o.dr)
  }

  function Negate(o: Offset): Offset
  {
    Offset(-o.dr, -o.dc)
  }

  /** The code 45 degrees clockwise of `code` (the next bit, wrapping 128 to 1). */
  function Clockwise(code: int): (r: int)
    requires IsCode(code)
    ensures IsCode(r) && r != code
  {
    if code == 128 then 1 else code * 2
  }

  /** The code 45 degrees anticlockwise of `code`. */
  function Anticlockwise(code: int): (r: int)
    requires IsCode(code)
    ensures IsCode(r) && Clockwise(r) == code
  {
    match code
    case 1 => 128
    case 2 => 1
    case 4 => 2
    case 8 => 4
    case 16 => 8
    case 32 => 16
    case 64 => 32
    case _ => 64
  }

  /** The code pointing the opposite way. */
  function Opposite(code: int): int
    requires IsCode(code)
  {
    if code < 16 then code * 16 else code / 16
  }

  /** The move from a stream cell to the next cell downstream (the walker's
      step after the cross-sections of one cell are traced). */
  function Downstream(code: int): (o: Offset)
    requires IsCode(code)
    ensures -1 <= o.dr <= 1 && -1 <= o.dc <= 1 && o != Offset(0, 0)
    ensures IsDiagonal(code) <==> o.dr != 0 && o.dc != 0
  {
    match code
    case 1 => Offset(0, 1)
    case 2 => Offset(1, 1)
    case 4 => Offset(1, 0)
    case 8 => Offset(1, -1)
    case 16 => Offset(0, -1)
    case 32 => Offset(-1, -1)
    case 64 => Offset(-1, 0)
    case _ => Offset(-1, 1)
  }

  /** Where the left anchor of a cross-section sits relative to the stream
      cell; the stream cell itself is the right anchor. */
  function LeftSeed(code: int): (o: Offset)
    requires IsCode(code)
    ensures o == TurnLeft(Downstream(code))
  {
    match code
    case 1 => Offset(-1, 0)
    case 2 => Offset(-1, 1)
    case 4 => Offset(0, 1)
    case 8 => Offset(1, 1)
    case 16 => Offset(1, 0)
    case 32 => Offset(1, -1)
    case 64 => Offset(0, -1)
    case _ => Offset(-1, -1)
  }

  /** The operators `(rowoper, coloper)` that move one side of a
      cross-section one cell further out; the left side adds them and the
      right side subtracts them. */
  function LateralStep(code: int): (o: Offset)
    requires IsCode(code)
    ensures o == LeftSeed(code)
  {
    match code
    case 1 => Offset(-1, 0)
    case 2 => Offset(-1, 1)
    case 4 => Offset(0, 1)
    case 8 => Offset(1, 1)
    case 16 => Offset(1, 0)
    case 32 => Offset(1, -1)
    case 64 => Offset(0, -1)
    case _ => Offset(-1, -1)
  }

  /** The length one lateral cell contributes to a cross-section. */
  function CellDimension(code: int, cellWidth: real, cellDiagonal: real): (d: real)
    requires IsCode(code)
    ensures LateralStep(code).dr != 0 && LateralStep(code).dc != 0 ==> d == cellDiagonal
    ensures LateralStep(code).dr == 0 || LateralStep(code).dc == 0 ==> d == cellWidth
  {
    if code == 8 || code == 128 || code == 2 || code == 32 then cellDiagonal else cellWidth
  }

  /** For a diagonal code, the cell beside the stream cell at which one more
      cross-section is traced, so that a diagonal path leaves no gap. */
  function CheckerboardOffset(code: int): (o: Offset)
    requires IsDiagonal(code)
    ensures (o.dr == Downstream(code).dr && o.dc == 0) || (o.dr == 0 && o.dc == Downstream(code).dc)
    ensures code == 8 || code == 128 ==> o == Offset(Downstream(code).dr, 0)
    ensures code == 2 || code == 32 ==> o == Offset(0, Downstream(code).dc)
  {
    if code == 8 then Offset(1, 0)
    else if code == 32 then Offset(0, -1)
    else if code == 128 then Offset(-1, 0)
    else Offset(0, 1)
  }

  /** The code the walker currently holds and the codes traced so far. */
  datatype Chain = Chain(current: int, traced: seq<int>)

  /** One `if` of the walker's chain: when the current code is `when`, trace
      `first` and `second` and leave the current code at `second`. */
  function Fire(ch: Chain, when: int, first: int, second: int): Chain
  {
    if ch.current == when then Chain(second, ch.traced + [first, second]) else ch
  }

  /** The walker's `if` statements applied in order to `code`, starting
      from the trace of `code` itself. */
  function FireAll(code: int): Chain
  {
    var c0 := Chain(code, [code]);
    var c1 := Fire(c0, 32, 16, 64);
    var c2 := Fire(c1, 128, 64, 1);
    var c3 := Fire(c2, 2, 1, 4);
    var c4 := Fire(c3, 8, 4, 16);
    var c5 := Fire(c4, 1, 128, 2);
    var c6 := Fire(c5, 4, 2, 8);
    var c7 := Fire(c6, 16, 8, 32);
    Fire(c7, 64, 32, 128)
  }

  /** The traced codes, spelled out for each canonical code. */
  lemma TracedCodesTable()
    ensures FireAll(1).traced == [1, 128, 2]
    ensures FireAll(2).traced == [2, 1, 4, 2, 8]
    ensures FireAll(4).traced == [4, 2, 8]
    ensures FireAll(8).traced == [8, 4, 16, 8, 32]
    ensures FireAll(16).traced == [16, 8, 32]
    ensures FireAll(32).traced == [32, 16, 64, 32, 128]
    ensures FireAll(64).traced == [64, 32, 128]
    ensures FireAll(128).traced == [128, 64, 1, 128, 2]
  {
  }

  /** The shape of the traced codes. The `if` statements are not chained
      with `elif`, so one can fire on the code an earlier one left behind: a
      cardinal code gets its own trace and one in each adjacent octant, a
      diagonal code gets those three, then its own again and one two octants
      clockwise. */
  lemma FireAllShape(code: int)
    requires IsCode(code)
    ensures !IsDiagonal(code) ==> FireAll(code).traced == [code, Anticlockwise(code), Clockwise(code)]
    ensures IsDiagonal(code) ==>
              FireAll(code).traced == [code, Anticlockwise(code), Clockwise(code), code, Clockwise(Clockwise(code))]
  {
    TracedCodesTable();
  }

  /** The codes traced at one stream cell before the checkerboard trace,
      as `FireAllShape` describes them; every one is again a code. */
  function TracedCodes(code: int): (r: seq<int>)
    requires IsCode(code)
    ensures !IsDiagonal(code) ==> r == [code, Anticlockwise(code), Clockwise(code)]
    ensures IsDiagonal(code) ==> r == [code, Anticlockwise(code), Clockwise(code), code, Clockwise(Clockwise(code))]
    ensures forall k :: 0 <= k < |r| ==> IsCode(r[k])
  {
    FireAllShape(code);
    FireAll(code).traced
  }

  /** Opposite codes move in opposite directions. */
  lemma DownstreamOpposite(code: int)
    requires IsCode(code)
    ensures IsCode(Opposite(code))
    ensures Downstream(Opposite(code)) == Negate(Downstream(code))
  {
  }

  /** Distinct codes move to distinct neighbours. */
  lemma DownstreamInjective(a: int, b: int)
    requires IsCode(a) && IsCode(b) && a != b
    ensures Downstream(a) != Downstream(b)
  {
  }
}

=== FILE: faults.dfy ===
/** The ways a run of the engine stops abnormally. Python raises these as
    exceptions that end the program; the model returns them. */
module Faults {

  /** `IndexError`: a NumPy index outside `-n .. n - 1` on some axis.
      `BadDirection`: a flow-direction cell holding none of the eight codes
      (the tracer fails with an unbound local variable on it; the
      demonstration's downstream step raises `ValueError`).
      `ClosedFileWrite`: the `ValueError` of writing to the run's points
      file after it was closed. */
  datatype Fault = IndexError | BadDirection(code: int) | ClosedFileWrite

  datatype Result<T> = Success(value: T) | Failure(fault: Fault)
}

=== FILE: grid.dfy ===
/** Rectangular grids addressed the way NumPy addresses a 2-D array.

    The rasters of the inundation engine (elevations `A`, flow codes `C`,
    ownership `B`) are NumPy arrays indexed `[row, col]`. NumPy accepts an
    index `i` on an axis of length `n` when `-n <= i < n` and counts a
    negative index from the end; any other index raises `IndexError`. A grid
    here is a sequence of rows, and every access goes through `Wrap`. */
module Grids {

  type Grid<T> = seq<seq<T>>

  /** The number of rows and columns of a raster. */
  datatype Shape = Shape(rows: nat, cols: nat)

  /** `g` has exactly the rows and columns of `sh`. */
  predicate Fits<T>(g: Grid<T>, sh: Shape)
  {
    |g| == sh.rows && forall r :: 0 <= r < |g| ==> |g[r]| == sh.cols
  }

  /** NumPy accepts index `i` on an axis of length `n`. */
  predicate Addressable(n: nat, i: int)
  {
    -(n as int) <= i < n
  }

  predicate InShape(sh: Shape, r: int, c: int)
  {
    Addressable(sh.rows, r) && Addressable(sh.cols, c)
  }

  /** The element NumPy reaches with an accepted index: a negative one counts from the end. */
  function Wrap(n: nat, i: int): (k: nat)
    requires Addressable(n, i)
    ensures k < n
    ensures 0 <= i ==> k == i
    ensures i < 0 ==> k == i + n
  {
    if i < 0 then i + n else i
  }

  function Get<T>(g: Grid<T>, sh: Shape, r: int, c: int): T
    requires Fits(g, sh) && InShape(sh, r, c)
  {
    g[Wrap(sh.rows, r)][Wrap(sh.cols, c)]
  }

  /** `B[r, c] = v`: the addressed cell becomes `v`, every other cell keeps its value. */
  function Set<T>(g: Grid<T>, sh: Shape, r: int, c: int, v: T): (g': Grid<T>)
    requires Fits(g, sh) && InShape(sh, r, c)
    ensures Fits(g', sh)
    ensures Get(g', sh, r, c) == v
    ensures forall i, j ::
              0 <= i < sh.rows && 0 <= j < sh.cols && (i != Wrap(sh.rows, r) || j != Wrap(sh.cols, c))
              ==> g'[i][j] == g[i][j]
  {
    var i := Wrap(sh.rows, r);
    g[i := g[i][Wrap(sh.cols, c) := v]]
  }

  /** Every cell of `g'` holds at least the value of the same cell of `g`. */
  predicate Dominates(g': Grid<int>, g: Grid<int>)
  {
    && |g'| == |g|
    && (forall i :: 0 <= i < |g| ==> |g'[i]| == |g[i]|)
    && (forall i, j :: 0 <= i < |g| && 0 <= j < |g[i]| ==> g'[i][j] >= g[i][j])
  }

  /** Every cell of `g` lies in `lo..hi`. */
  predicate Bounded(g: Grid<int>, lo: int, hi: int)
  {
    forall i, j :: 0 <= i < |g| && 0 <= j < |g[i]| ==> lo <= g[i][j] <= hi
  }

  /** Every cell of `g` holds `v`. */
  predicate Uniform(g: Grid<int>, v: int)
  {
    forall i, j :: 0 <= i < |g| && 0 <= j < |g[i]| ==> g[i][j] == v
  }

  /** How many entries of a row equal `v`. */
  function CountRow(s: seq<int>, v: int): nat
  {
    if s == [] then 0 else (if s[0] == v then 1 else 0) + CountRow(s[1..], v)
  }

  /** How many cells of a grid equal `v`. */
  function Count(g: Grid<int>, v: int): nat
  {
    if g == [] then 0 else CountRow(g[0], v) + Count(g[1..], v)
  }

  /** How many entries of a row are at least `v`. */
  function AtLeastRow(s: seq<int>, v: int): nat
  {
    if s == [] then 0 else (if s[0] >= v then 1 else 0) + AtLeastRow(s[1..], v)
  }

  /** How many cells of a grid are at least `v`. */
  function AtLeast(g: Grid<int>, v: int): nat
  {
    if g == [] then 0 else AtLeastRow(g[0], v) + AtLeast(g[1..], v)
  }

  function Indicator(b: bool): int
  {
    if b then 1 else 0
  }

  lemma {:induction false} CountRowUpdate(s: seq<int>, j: nat, x: int, v: int)
    requires j < |s|
    ensures CountRow(s[j := x], v) == CountRow(s, v) - Indicator(s[j] == v) + Indicator(x == v)
  {
    if j > 0 {
      assert s[j := x][1..] == s[1..][j - 1 := x];
      CountRowUpdate(s[1..], j - 1, x, v);
    } else {
      assert s[j := x][1..] == s[1..];
    }
  }

  /** Writing one cell moves exactly that cell between the tallies of its old and new value. */
  lemma {:induction false} CountUpdate(g: Grid<int>, i: nat, j: nat, x: int, v: int)
    requires i < |g| && j < |g[i]|
    ensures Count(g[i := g[i][j := x]], v) == Count(g, v) - Indicator(g[i][j] == v) + Indicator(x == v)
  {
    var g' := g[i := g[i][j := x]];
    if i > 0 {
      assert g'[1..] == g[1..][i - 1 := g[1..][i - 1][j := x]];
      CountUpdate(g[1..], i - 1, j, x, v);
    } else {
      assert g'[1..] == g[1..];
      CountRowUpdate(g[0], j, x, v);
    }
  }

  /** The cells holding at least `v` are those holding exactly `v` and those holding at least `v + 1`. */
  lemma {:induction false} AtLeastRowSplit(s: seq<int>, v: int)
    ensures AtLeastRow(s, v) == CountRow(s, v) + AtLeastRow(s, v + 1)
  {
    if s != [] {
      AtLeastRowSplit(s[1..], v);
    }
  }

  lemma {:induction false} AtLeastSplit(g: Grid<int>, v: int)
    ensures AtLeast(g, v) == Count(g, v) + AtLeast(g, v + 1)
  {
    if g != [] {
      AtLeastRowSplit(g[0], v);
      AtLeastSplit(g[1..], v);
    }
  }

  /** No cell exceeds `hi`, so no cell is counted at `hi + 1` or above. */
  lemma {:induction false} AtLeastAboveBound(g: Grid<int>, lo: int, hi: int)
    requires Bounded(g, lo, hi)
    ensures AtLeast(g, hi + 1) == 0
  {
    if g != [] {
      AtLeastRowAboveBound(g[0], hi);
      AtLeastAboveBound(g[1..], lo, hi);
    }
  }

  lemma {:induction false} AtLeastRowAboveBound(s: seq<int>, hi: int)
    requires forall j :: 0 <= j < |s| ==> s[j] <= hi
    ensures AtLeastRow(s, hi + 1) == 0
  {
    if s != [] {
      AtLeastRowAboveBound(s[1..], hi);
    }
  }

  lemma {:induction false} AtLeastRowMonotone(s': seq<int>, s: seq<int>, v: int)
    requires |s'| == |s|
    requires forall j :: 0 <= j < |s| ==> s'[j] >= s[j]
    ensures AtLeastRow(s', v) >= AtLeastRow(s, v)
  {
    if s != [] {
      AtLeastRowMonotone(s'[1..], s[1..], v);
    }
  }

  /** Raising cells never shrinks the number of cells at or above a level. */
  lemma {:induction false} AtLeastMonotone(g': Grid<int>, g: Grid<int>, v: int)
    requires Dominates(g', g)
    ensures AtLeast(g', v) >= AtLeast(g, v)
  {
    if g != [] {
      assert forall j :: 0 <= j < |g[0]| ==> g'[0][j] >= g[0][j];
      AtLeastRowMonotone(g'[0], g[0], v);
      assert Dominates(g'[1..], g[1..]) by {
        forall i, j | 0 <= i < |g[1..]| && 0 <= j < |g[1..][i]|
          ensures g'[1..][i][j] >= g[1..][i][j]
        {
          assert g'[1..][i] == g'[i + 1] && g[1..][i] == g[i + 1];
        }
      }
      AtLeastMonotone(g'[1..], g[1..], v);
    }
  }

  lemma {:induction false} CountRowUniform(s: seq<int>, u: int, v: int)
    requires forall j :: 0 <= j < |s| ==> s[j] == u
    requires v != u
    ensures CountRow(s, v) == 0
  {
    if s != [] {
      CountRowUniform(s[1..], u, v);
    }
  }

  /** A grid holding one value everywhere has no cell of any other value. */
  lemma {:induction false} CountUniform(g: Grid<int>, u: int, v: int)
    requires Uniform(g, u)
    requires v != u
    ensures Count(g, v) == 0
  {
    if g != [] {
      CountRowUniform(g[0], u, v);
      CountUniform(g[1..], u, v);
    }
  }

  lemma DominatesReflexive(g: Grid<int>)
    ensures Dominates(g, g)
  {
  }

  lemma DominatesTransitive(a: Grid<int>, b: Grid<int>, c: Grid<int>)
    requires Dominates(a, b) && Dominates(b, c)
    ensures Dominates(a, c)
  {
  }
}

=== FILE: merge.dfy ===
/** The merge step: the run grids of one invocation (one per stream start
    point) are combined into one grid per volume scenario.

    For volume index `x` the merged grid starts all 1; every cell that some
    run grid holds at a claim level above `x + 1` becomes `x + 2`. A run
    grid is read over its own rows and columns, so a marked cell outside the
    merged grid's shape raises `IndexError`, and the program's blanket
    exception handler ends the merge there. */
module Merge {
  import opened Grids
  import opened Faults

  /** The value of an unmarked cell of a merged grid. */
  const Unmarked: int := 1

  /** The merged grid of volume index `x` marks its cells with `x + 2`. */
  function Mark(x: nat): int
  {
    x + 2
  }

  /** Run grid `b` marks cell `(j, i)` for volume index `x`. */
  predicate Marks(b: Grid<int>, x: nat, j: int, i: int)
  {
    0 <= j < |b| && 0 <= i < |b[j]| && b[j][i] > x + 1
  }

  /** Some cell `b` marks for volume `x` lies outside shape `sh`. */
  predicate Spills(b: Grid<int>, sh: Shape, x: nat)
  {
    exists j, i :: 0 <= j < |b| && 0 <= i < |b[j]| && Marks(b, x, j, i) && (j >= sh.rows || i >= sh.cols)
  }

  /** Some run grid of `rs` marks cell `(j, i)` for volume `x`. */
  predicate AnyMarks(rs: seq<Grid<int>>, x: nat, j: int, i: int)
  {
    exists k :: 0 <= k < |rs| && Marks(rs[k], x, j, i)
  }

  /** Some run grid of `rs` spills for volume `x`. */
  predicate AnySpills(rs: seq<Grid<int>>, sh: Shape, x: nat)
  {
    exists k :: 0 <= k < |rs| && Spills(rs[k], sh, x)
  }

  /** The grid of shape `sh` holding 1 everywhere. */
  function Blank(sh: Shape): (g: Grid<int>)
    ensures Fits(g, sh) && Uniform(g, Unmarked)
  {
    seq(sh.rows, _ => seq(sh.cols, _ => Unmarked))
  }

  /** Scan one run grid: every cell it marks becomes `x + 2` in `a`. */
  function Overlay(a: Grid<int>, sh: Shape, b: Grid<int>, x: nat): (r: Result<Grid<int>>)
    requires Fits(a, sh)
    ensures r.Failure? <==> Spills(b, sh, x)
    ensures r.Failure? ==> r.fault == IndexError
    ensures r.Success? ==> Fits(r.value, sh)
    ensures r.Success? ==> forall j, i :: 0 <= j < sh.rows && 0 <= i < sh.cols ==>
              r.value[j][i] == if Marks(b, x, j, i) then Mark(x) else a[j][i]
  {
    if Spills(b, sh, x) then Failure(IndexError)
    else Success(seq(sh.rows, j requires 0 <= j < sh.rows =>
                   seq(sh.cols, i requires 0 <= i < sh.cols => if Marks(b, x, j, i) then Mark(x) else a[j][i])))
  }

  /** Overlay the run grids of `rs` onto `a`, in order. */
  function OverlayAll(a: Grid<int>, sh: Shape, rs: seq<Grid<int>>, x: nat): (r: Result<Grid<int>>)
    requires Fits(a, sh)
    ensures r.Success? ==> Fits(r.value, sh)
    decreases |rs|
  {
    if rs == [] then Success(a)
    else
      match Overlay(a, sh, rs[0], x)
      case Failure(f) => Failure(f)
      case Success(a') => OverlayAll(a', sh, rs[1..], x)
  }

  /** The merged grid of volume index `x`. */
  function MergeVolume(rs: seq<Grid<int>>, sh: Shape, x: nat): (r: Result<Grid<int>>)
    ensures r.Success? ==> Fits(r.value, sh)
  {
    OverlayAll(Blank(sh), sh, rs, x)
  }

  /** Overlaying a list of run grids fails exactly when one of them spills;
      otherwise a cell becomes `x + 2` when some run grid marks it and keeps
      its value when none does. */
  lemma {:induction false} OverlayAllCharacterised(a: Grid<int>, sh: Shape, rs: seq<Grid<int>>, x: nat)
    requires Fits(a, sh)
    ensures OverlayAll(a, sh, rs, x).Failure? <==> AnySpills(rs, sh, x)
    ensures OverlayAll(a, sh, rs, x).Failure? ==> OverlayAll(a, sh, rs, x).fault == IndexError
    ensures OverlayAll(a, sh, rs, x).Success? ==> Fits(OverlayAll(a, sh, rs, x).value, sh)
    ensures OverlayAll(a, sh, rs, x).Success? ==> forall j, i :: 0 <= j < sh.rows && 0 <= i < sh.cols ==>
              OverlayAll(a, sh, rs, x).value[j][i] == if AnyMarks(rs, x, j, i) then Mark(x) else a[j][i]
    decreases |rs|
  {
    if rs != [] {
      var o := Overlay(a, sh, rs[0], x);
      SpillsSplit(rs, sh, x);
      if o.Success? {
        OverlayAllCharacterised(o.value, sh, rs[1..], x);
        var r := OverlayAll(a, sh, rs, x);
        if r.Success? {
          forall j, i | 0 <= j < sh.rows && 0 <= i < sh.cols
            ensures r.value[j][i] == if AnyMarks(rs, x, j, i) then Mark(x) else a[j][i]
          {
            MarksSplit(rs, x, j, i);
          }
        }
      }
    }
  }

  lemma SpillsSplit(rs: seq<Grid<int>>, sh: Shape, x: nat)
    requires rs != []
    ensures AnySpills(rs, sh, x) <==> Spills(rs[0], sh, x) || AnySpills(rs[1..], sh, x)
  {
    if AnySpills(rs, sh, x) {
      var k :| 0 <= k < |rs| && Spills(rs[k], sh, x);
      if k > 0 {
        assert rs[1..][k - 1] == rs[k];
      }
    }
    if AnySpills(rs[1..], sh, x) {
      var k :| 0 <= k < |rs[1..]| && Spills(rs[1..][k], sh, x);
      assert rs[k + 1] == rs[1..][k];
    }
  }

  lemma MarksSplit(rs: seq<Grid<int>>, x: nat, j: int, i: int)
    requires rs != []
    ensures AnyMarks(rs, x, j, i) <==> Marks(rs[0], x, j, i) || AnyMarks(rs[1..], x, j, i)
  {
    if AnyMarks(rs, x, j, i) {
      var k :| 0 <= k < |rs| && Marks(rs[k], x, j, i);
      if k > 0 {
        assert rs[1..][k - 1] == rs[k];
      }
    }
    if AnyMarks(rs[1..], x, j, i) {
      var k :| 0 <= k < |rs[1..]| && Marks(rs[1..][k], x, j, i);
      assert rs[k + 1] == rs[1..][k];
    }
  }

  /** The merged grid of volume `x`: it exists exactly when no run grid
      marks a cell outside the shape, has the shape, and holds `x + 2`
      where some run grid is above `x + 1` and 1 everywhere else. */
  lemma MergeVolumeCharacterised(rs: seq<Grid<int>>, sh: Shape, x: nat)
    ensures MergeVolume(rs, sh, x).Failure? <==> AnySpills(rs, sh, x)
    ensures MergeVolume(rs, sh, x).Failure? ==> MergeVolume(rs, sh, x).fault == IndexError
    ensures MergeVolume(rs, sh, x).Success? ==> Fits(MergeVolume(rs, sh, x).value, sh)
    ensures MergeVolume(rs, sh, x).Success? ==> forall j, i :: 0 <= j < sh.rows && 0 <= i < sh.cols ==>
              MergeVolume(rs, sh, x).value[j][i] == if AnyMarks(rs, x, j, i) then Mark(x) else Unmarked
  {
    OverlayAllCharacterised(Blank(sh), sh, rs, x);
  }

  /** Every cell of a merged grid holds 1 or `x + 2`. */
  lemma MergeVolumeTwoValued(rs: seq<Grid<int>>, sh: Shape, x: nat)
    requires MergeVolume(rs, sh, x).Success?
    ensures forall j, i :: 0 <= j < sh.rows && 0 <= i < sh.cols ==>
              MergeVolume(rs, sh, x).value[j][i] in {Unmarked, Mark(x)}
  {
    MergeVolumeCharacterised(rs, sh, x);
  }

  /** The merge depends only on which run grids are listed: their order and
      any repetitions make no difference. */
  lemma MergeDependsOnlyOnSet(rs: seq<Grid<int>>, qs: seq<Grid<int>>, sh: Shape, x: nat)
    requires forall g :: g in rs <==> g in qs
    ensures MergeVolume(rs, sh, x) == MergeVolume(qs, sh, x)
  {
    MergeVolumeCharacterised(rs, sh, x);
    MergeVolumeCharacterised(qs, sh, x);
    SameMembersSameSpills(rs, qs, sh, x);
    SameMembersSameSpills(qs, rs, sh, x);
    if MergeVolume(rs, sh, x).Success? {
      assert MergeVolume(qs, sh, x).Success?;
      var a, b := MergeVolume(rs, sh, x).value, MergeVolume(qs, sh, x).value;
      forall j | 0 <= j < sh.rows
        ensures a[j] == b[j]
      {
        forall i | 0 <= i < sh.cols
          ensures a[j][i] == b[j][i]
        {
          SameMembersSameMarks(rs, qs, x, j, i);
          SameMembersSameMarks(qs, rs, x, j, i);
        }
      }
      assert a == b;
    }
  }

  lemma SameMembersSameSpills(rs: seq<Grid<int>>, qs: seq<Grid<int>>, sh: Shape, x: nat)
    requires forall g :: g in rs ==> g in qs
    ensures AnySpills(rs, sh, x) ==> AnySpills(qs, sh, x)
  {
    if AnySpills(rs, sh, x) {
      var k :| 0 <= k < |rs| && Spills(rs[k], sh, x);
      assert rs[k] in qs;
      var m :| 0 <= m < |qs| && qs[m] == rs[k];
    }
  }

  lemma SameMembersSameMarks(rs: seq<Grid<int>>, qs: seq<Grid<int>>, x: nat, j: int, i: int)
    requires forall g :: g in rs ==> g in qs
    ensures AnyMarks(rs, x, j, i) ==> AnyMarks(qs, x, j, i)
  {
    if AnyMarks(rs, x, j, i) {
      var k :| 0 <= k < |rs| && Marks(rs[k], x, j, i);
      assert rs[k] in qs;
      var m :| 0 <= m < |qs| && qs[m] == rs[k];
    }
  }

  /** The merged grids are nested: a cell marked for volume index `x + 1`
      is marked for `x` as well, and if the merge for `x` succeeds so does
      the merge for `x + 1`. */
  lemma MergeNested(rs: seq<Grid<int>>, sh: Shape, x: nat)
    ensures MergeVolume(rs, sh, x).Success? ==> MergeVolume(rs, sh, x + 1).Success?
    ensures MergeVolume(rs, sh, x + 1).Success? && MergeVolume(rs, sh, x).Success? ==>
              forall j, i :: 0 <= j < sh.rows && 0 <= i < sh.cols && MergeVolume(rs, sh, x + 1).value[j][i] == Mark(x + 1) ==>
                MergeVolume(rs, sh, x).value[j][i] == Mark(x)
  {
    MergeVolumeCharacterised(rs, sh, x);
    MergeVolumeCharacterised(rs, sh, x + 1);
    if AnySpills(rs, sh, x + 1) {
      var k :| 0 <= k < |rs| && Spills(rs[k], sh, x + 1);
      var j, i :| 0 <= j < |rs[k]| && 0 <= i < |rs[k][j]| && Marks(rs[k], x + 1, j, i) && (j >= sh.rows || i >= sh.cols);
      assert Marks(rs[k], x, j, i);
      assert Spills(rs[k], sh, x);
    }
    forall j, i | 0 <= j < sh.rows && 0 <= i < sh.cols && AnyMarks(rs, x + 1, j, i)
      ensures AnyMarks(rs, x, j, i)
    {
      var k :| 0 <= k < |rs| && Marks(rs[k], x + 1, j, i);
      assert Marks(rs[k], x, j, i);
    }
  }

  /** The volume loop: one merged grid per volume, in volume order. The
      exception handler swallows a failure, so the grids saved are those
      merged before it; because a spill for one volume is a spill for every
      smaller index, a failure happens at the first volume or not at all. */
  method MergeRuns(rs: seq<Grid<int>>, sh: Shape, volumes: nat) returns (saved: seq<Grid<int>>, failed: bool)
    ensures failed ==> saved == []
    ensures !failed ==> |saved| == volumes
    ensures failed <==> volumes > 0 && AnySpills(rs, sh, 0)
    ensures forall x :: 0 <= x < |saved| ==> MergeVolume(rs, sh, x) == Success(saved[x])
  {
    saved := [];
    failed := false;
    for x := 0 to volumes
      invariant |saved| == x
      invariant forall y :: 0 <= y < x ==> MergeVolume(rs, sh, y) == Success(saved[y])
    {
      var merged := MergeVolume(rs, sh, x);
      MergeVolumeCharacterised(rs, sh, x);
      if merged.Failure? {
        FailureAtFirst(rs, sh, x);
        assert x == 0 by {
          if x > 0 {
            MergeVolumeCharacterised(rs, sh, 0);
          }
        }
        return [], true;
      }
      saved := saved + [merged.value];
    }
    if volumes > 0 && AnySpills(rs, sh, 0) {
      MergeVolumeCharacterised(rs, sh, 0);
    }
  }

  /** A spill at volume index `x` is a spill at index 0. */
  lemma FailureAtFirst(rs: seq<Grid<int>>, sh: Shape, x: nat)
    ensures AnySpills(rs, sh, x) ==> AnySpills(rs, sh, 0)
  {
    if AnySpills(rs, sh, x) {
      var k :| 0 <= k < |rs| && Spills(rs[k], sh, x);
      var j, i :| 0 <= j < |rs[k]| && 0 <= i < |rs[k][j]| && Marks(rs[k], x, j, i) && (j >= sh.rows || i >= sh.cols);
      assert Marks(rs[k], 0, j, i);
      assert Spills(rs[k], sh, 0);
    }
  }
}

=== FILE: ownership.dfy ===
/** The ownership grid `B` and the per-level cell tallies `planvals`.

    A cell of `B` holds 1 (background, unclaimed) or a claim level `L >= 2`.
    A claim made while `n` cross-section budgets are still active carries
    level `n + 1`; `planvals[L - 2]` counts the cells at level `L`. Inner
    (smaller) scenarios are dropped from the tail of the budget list, so a
    higher level means a cell lies inside a smaller-volume footprint. */
module Ownership {
  import opened Grids

  /** The value of an unclaimed cell. */
  const Background: int := 1

  /** The ownership grid and the tallies agree: every cell is background or
      a level `2 .. |planvals| + 1`, and `planvals[k]` is the number of cells
      at level `k + 2`. */
  predicate Consistent(owner: Grid<int>, sh: Shape, planvals: seq<int>)
  {
    && Fits(owner, sh)
    && Bounded(owner, Background, |planvals| + 1)
    && forall k :: 0 <= k < |planvals| ==> planvals[k] == Count(owner, k + 2)
  }

  /** The two values the claim rule updates together. */
  datatype Tally = Tally(planvals: seq<int>, owner: Grid<int>)

  function Sum(s: seq<int>): int
  {
    if s == [] then 0 else s[0] + Sum(s[1..])
  }

  lemma {:induction false} SumUpdate(s: seq<int>, i: nat, x: int)
    requires i < |s|
    ensures Sum(s[i := x]) == Sum(s) - s[i] + x
  {
    if i > 0 {
      assert s[i := x][1..] == s[1..][i - 1 := x];
      SumUpdate(s[1..], i - 1, x);
    } else {
      assert s[i := x][1..] == s[1..];
    }
  }

  function Max(a: int, b: int): int
  {
    if a < b then b else a
  }

  /** The claim rule: cell `(x, y)` is claimed at level `active + 1`, where
      `active` is the number of cross-section budgets still active. The cell
      ends at the larger of its old value and that level; the tallies move
      with it, and their total grows only when a background cell is claimed. */
  function AppendCurrPoint(t: Tally, sh: Shape, x: int, y: int, active: nat): (t': Tally)
    requires Fits(t.owner, sh) && InShape(sh, x, y)
    requires 1 <= active <= |t.planvals|
    requires Background <= Get(t.owner, sh, x, y) <= |t.planvals| + 1
    ensures |t'.planvals| == |t.planvals| && Fits(t'.owner, sh)
    ensures Get(t'.owner, sh, x, y) == Max(Get(t.owner, sh, x, y), active + 1)
    ensures forall i, j ::
              0 <= i < sh.rows && 0 <= j < sh.cols && (i != Wrap(sh.rows, x) || j != Wrap(sh.cols, y))
              ==> t'.owner[i][j] == t.owner[i][j]
    ensures Dominates(t'.owner, t.owner)
    ensures Bounded(t.owner, Background, |t.planvals| + 1) ==> Bounded(t'.owner, Background, |t.planvals| + 1)
    ensures Consistent(t.owner, sh, t.planvals) ==> Consistent(t'.owner, sh, t'.planvals)
    ensures Sum(t'.planvals) == Sum(t.planvals) + Indicator(Get(t.owner, sh, x, y) == Background)
  {
    var level := active + 1;
    var v := Get(t.owner, sh, x, y);
    var t' :=
      if v == Background then
        Tally(t.planvals[level - 2 := t.planvals[level - 2] + 1], Set(t.owner, sh, x, y, level))
      else if v < level then
        var moved := t.planvals[v - 2 := t.planvals[v - 2] - 1];
        Tally(moved[level - 2 := moved[level - 2] + 1], Set(t.owner, sh, x, y, level))
      else
        t;
    ClaimProperties(t, t', sh, x, y, active);
    t'
  }

  /** The three branches of the claim rule, as `AppendCurrPoint` writes them. */
  predicate ClaimOutcome(t: Tally, t': Tally, sh: Shape, x: int, y: int, active: nat)
    requires Fits(t.owner, sh) && InShape(sh, x, y)
    requires 1 <= active <= |t.planvals|
    requires Background <= Get(t.owner, sh, x, y) <= |t.planvals| + 1
  {
    var level := active + 1;
    var v := Get(t.owner, sh, x, y);
    if v == Background then
      t' == Tally(t.planvals[level - 2 := t.planvals[level - 2] + 1], Set(t.owner, sh, x, y, level))
    else if v < level then
      var moved := t.planvals[v - 2 := t.planvals[v - 2] - 1];
      t' == Tally(moved[level - 2 := moved[level - 2] + 1], Set(t.owner, sh, x, y, level))
    else
      t' == t
  }

  /** The facts `AppendCurrPoint` promises, proved from its three branches. */
  lemma ClaimProperties(t: Tally, t': Tally, sh: Shape, x: int, y: int, active: nat)
    requires Fits(t.owner, sh) && InShape(sh, x, y)
    requires 1 <= active <= |t.planvals|
    requires Background <= Get(t.owner, sh, x, y) <= |t.planvals| + 1
    requires ClaimOutcome(t, t', sh, x, y, active)
    ensures Dominates(t'.owner, t.owner)
    ensures Bounded(t.owner, Background, |t.planvals| + 1) ==> Bounded(t'.owner, Background, |t.planvals| + 1)
    ensures Consistent(t.owner, sh, t.planvals) ==> Consistent(t'.owner, sh, t'.planvals)
    ensures Sum(t'.planvals) == Sum(t.planvals) + Indicator(Get(t.owner, sh, x, y) == Background)
  {
    ClaimTotal(t, t', sh, x, y, active);
    if Consistent(t.owner, sh, t.planvals) {
      ClaimKeepsAgreement(t, t', sh, x, y, active);
    }
  }

  /** The tally total grows by one exactly when a background cell is claimed. */
  lemma ClaimTotal(t: Tally, t': Tally, sh: Shape, x: int, y: int, active: nat)
    requires Fits(t.owner, sh) && InShape(sh, x, y)
    requires 1 <= active <= |t.planvals|
    requires Background <= Get(t.owner, sh, x, y) <= |t.planvals| + 1
    requires ClaimOutcome(t, t', sh, x, y, active)
    ensures Sum(t'.planvals) == Sum(t.planvals) + Indicator(Get(t.owner, sh, x, y) == Background)
  {
    var level := active + 1;
    var v := Get(t.owner, sh, x, y);
    if v == Background {
      SumUpdate(t.planvals, level - 2, t.planvals[level - 2] + 1);
    } else if v < level {
      var moved := t.planvals[v - 2 := t.planvals[v - 2] - 1];
      SumUpdate(t.planvals, v - 2, t.planvals[v - 2] - 1);
      SumUpdate(moved, level - 2, moved[level - 2] + 1);
    }
  }

  /** A claim keeps the grid and the tallies in agreement. */
  lemma ClaimKeepsAgreement(t: Tally, t': Tally, sh: Shape, x: int, y: int, active: nat)
    requires Fits(t.owner, sh) && InShape(sh, x, y)
    requires 1 <= active <= |t.planvals|
    requires Background <= Get(t.owner, sh, x, y) <= |t.planvals| + 1
    requires ClaimOutcome(t, t', sh, x, y, active)
    requires Consistent(t.owner, sh, t.planvals)
    ensures Consistent(t'.owner, sh, t'.planvals)
  {
    var level := active + 1;
    var v := Get(t.owner, sh, x, y);
    var i, j := Wrap(sh.rows, x), Wrap(sh.cols, y);
    if v < level {
      assert t'.owner == t.owner[i := t.owner[i][j := level]];
      forall k | 0 <= k < |t'.planvals|
        ensures t'.planvals[k] == Count(t'.owner, k + 2)
      {
        CountUpdate(t.owner, i, j, level, k + 2);
      }
    }
  }

  /** The sweep after each run: every claimed cell goes back to background. */
  function ResetOwnership(g: Grid<int>): (r: Grid<int>)
    ensures |r| == |g| && forall i :: 0 <= i < |g| ==> |r[i]| == |g[i]|
    ensures forall i, j :: 0 <= i < |g| && 0 <= j < |g[i]| && g[i][j] <= Background ==> r[i][j] == g[i][j]
  {
    seq(|g|, i requires 0 <= i < |g| =>
      seq(|g[i]|, j requires 0 <= j < |g[i]| => if g[i][j] > Background then Background else g[i][j]))
  }

  /** A grid whose cells are all background or claimed becomes all background
      after the sweep, and is then consistent with all-zero tallies: the next
      run starts with nothing claimed. */
  lemma ResetStartsFresh(g: Grid<int>, sh: Shape, n: nat)
    requires Fits(g, sh)
    requires forall i, j :: 0 <= i < |g| && 0 <= j < |g[i]| ==> g[i][j] >= Background
    ensures Uniform(ResetOwnership(g), Background)
    ensures Consistent(ResetOwnership(g), sh, seq(n, k => 0))
  {
    FreshConsistent(ResetOwnership(g), sh, n);
  }

  /** An all-background grid agrees with all-zero tallies. */
  lemma FreshConsistent(g: Grid<int>, sh: Shape, n: nat)
    requires Fits(g, sh) && Uniform(g, Background)
    ensures Consistent(g, sh, seq(n, k => 0))
  {
    var zeros := seq(n, k => 0);
    forall k | 0 <= k < n
      ensures zeros[k] == Count(g, k + 2)
    {
      CountUniform(g, Background, k + 2);
    }
  }

  /** With consistent tallies, the tallies from index `k` on add up to the
      number of cells claimed at level `k + 2` or higher. */
  lemma {:induction false} SuffixIsAtLeast(owner: Grid<int>, sh: Shape, planvals: seq<int>, k: nat)
    requires Consistent(owner, sh, planvals)
    requires k <= |planvals|
    ensures Sum(planvals[k..]) == AtLeast(owner, k + 2)
    decreases |planvals| - k
  {
    if k == |planvals| {
      AtLeastAboveBound(owner, Background, |planvals| + 1);
    } else {
      assert planvals[k..][1..] == planvals[k + 1..];
      SuffixIsAtLeast(owner, sh, planvals, k + 1);
      AtLeastSplit(owner, k + 2);
    }
  }
}

=== FILE: section.dfy ===
/** The cross-section tracer (`CalcCrossSection`) and the lateral step it
    uses (`GetNextSectionCell`, `CheckForWindowBoundaries`).

    From a stream cell the tracer keeps two anchors: the right one starts on
    the stream cell, the left one on the neighbour given by `LeftSeed`. A
    fill level starts at the stream cell's elevation. Each pass of the main
    loop either extends the flat baseline (an anchor at the fill level),
    fills a cell below the fill level, or raises the fill level to the next
    anchor; raising and filling lower every active cross-section budget by
    the area added, and a scenario whose budget goes negative is dropped
    from the tail. Every anchor passed over is claimed in the ownership grid.
    An anchor pushed off the window reads the sentinel elevation 99999.0,
    which forces every budget to -99999 and ends the trace. */
module CrossSection {
  import opened Grids
  import opened Directions
  import opened Ownership
  import opened Budgets
  import opened Faults

  /** The elevation an anchor reads once it has been pushed off the window. */
  const EdgeElevation: real := 99999.0

  /** The value every budget is forced to when an anchor reaches the edge. */
  const ExhaustedArea: real := -99999.0

  /** The main loop's safety bound. */
  const MaxIterations: nat := 1000000000

  /** Inclusive row bounds `xMin..xMax` and column bounds `yMin..yMax`. */
  datatype Window = Window(xMin: int, xMax: int, yMin: int, yMax: int)

  predicate InWindow(w: Window, x: int, y: int)
  {
    w.xMin <= x <= w.xMax && w.yMin <= y <= w.yMax
  }

  /** The window the program uses: the whole elevation array. */
  function FullWindow(sh: Shape): Window
  {
    Window(0, sh.rows - 1, 0, sh.cols - 1)
  }

  /** What the tracer reads: the elevation raster `A`, its window and the
      two cell lengths. */
  datatype Terrain = Terrain(elev: Grid<real>, shape: Shape, window: Window, cellWidth: real, cellDiagonal: real)

  /** The raster has its shape and the window lies inside it. */
  predicate WellFormed(t: Terrain)
  {
    && Fits(t.elev, t.shape)
    && 0 <= t.window.xMin && t.window.xMax < t.shape.rows
    && 0 <= t.window.yMin && t.window.yMax < t.shape.cols
  }

  /** One anchor of a cross-section: its row, column and the elevation the tracer holds for it. */
  datatype Cell = Cell(x: int, y: int, elev: real)

  /** A cell off the window sends the anchor back to its previous cell with
      the edge elevation; a cell on the window is read from the raster. */
  function CheckForWindowBoundaries(x: int, y: int, prevX: int, prevY: int, t: Terrain): (c: Cell)
    requires WellFormed(t)
    ensures InWindow(t.window, x, y) ==> c == Cell(x, y, Get(t.elev, t.shape, x, y))
    ensures !InWindow(t.window, x, y) ==> c == Cell(prevX, prevY, EdgeElevation)
  {
    if x < t.window.xMin || x > t.window.xMax || y < t.window.yMin || y > t.window.yMax then
      Cell(prevX, prevY, EdgeElevation)
    else
      Cell(x, y, Get(t.elev, t.shape, x, y))
  }

  /** Move an anchor one cell outward: `sign` is +1 for the left anchor and
      -1 for the right one. The move is `sign` times the code's left-seed
      offset, so both anchors stay on the line through the stream cell; a
      move off the window leaves the anchor where it was, reading the edge
      elevation. */
  function GetNextSectionCell(c: Cell, sign: int, code: int, t: Terrain): (r: Cell)
    requires WellFormed(t) && IsCode(code) && (sign == 1 || sign == -1)
    ensures var nx, ny := c.x + sign * LeftSeed(code).dr, c.y + sign * LeftSeed(code).dc;
            if InWindow(t.window, nx, ny) then r == Cell(nx, ny, Get(t.elev, t.shape, nx, ny))
            else r == Cell(c.x, c.y, EdgeElevation)
    ensures InWindow(t.window, r.x, r.y) || (r.x == c.x && r.y == c.y)
  {
    var op := LateralStep(code);
    CheckForWindowBoundaries(c.x + sign * op.dr, c.y + sign * op.dc, c.x, c.y, t)
  }

  /** The tracer's loop variables: the budgets still active (`currxarea`),
      the fill level, both anchors, the elapsed-cell counter, the tallies and
      ownership grid, and the loop counter. */
  datatype Trace = Trace(budgets: seq<real>, fill: real, left: Cell, right: Cell,
                         cellCount: int, tally: Tally, count: nat)

  /** What holds at every pass: at least one budget and no more budgets than
      tallies, an ownership grid whose cells a claim can index, anchors NumPy
      can address, and a non-negative elapsed-cell counter. */
  predicate TraceInv(t: Terrain, s: Trace)
  {
    && 1 <= |s.budgets| <= |s.tally.planvals|
    && Fits(s.tally.owner, t.shape)
    && Bounded(s.tally.owner, Background, |s.tally.planvals| + 1)
    && InShape(t.shape, s.left.x, s.left.y)
    && InShape(t.shape, s.right.x, s.right.y)
    && s.cellCount >= 0
  }

  /** The loop runs another pass: under the iteration bound and the largest
      budget not negative. */
  predicate Proceeds(s: Trace)
  {
    |s.budgets| >= 1 && s.count < MaxIterations && !(s.budgets[0] < 0.0)
  }

  /** One pass moves the tracer from `s` to `s'` without breaking the
      invariant: the tallies keep their length, the ownership grid only
      rises, and grid and tallies stay in agreement. */
  predicate Advances(t: Terrain, s: Trace, s': Trace)
  {
    && TraceInv(t, s')
    && |s'.tally.planvals| == |s.tally.planvals|
    && Dominates(s'.tally.owner, s.tally.owner)
    && (Consistent(s.tally.owner, t.shape, s.tally.planvals) ==> Consistent(s'.tally.owner, t.shape, s'.tally.planvals))
  }

  lemma AdvancesTransitive(t: Terrain, a: Trace, b: Trace, c: Trace)
    requires Advances(t, a, b) && Advances(t, b, c)
    ensures Advances(t, a, c)
  {
    DominatesTransitive(c.tally.owner, b.tally.owner, a.tally.owner);
  }

  /** Claim the left anchor and move it one cell outward. */
  function ClaimLeft(t: Terrain, code: int, s: Trace): (s': Trace)
    requires WellFormed(t) && IsCode(code) && TraceInv(t, s)
    ensures Advances(t, s, s')
    ensures s' == s.(tally := s'.tally, left := s'.left)
    ensures Get(s'.tally.owner, t.shape, s.left.x, s.left.y) >= |s.budgets| + 1
  {
    var tally := AppendCurrPoint(s.tally, t.shape, s.left.x, s.left.y, |s.budgets|);
    s.(tally := tally, left := GetNextSectionCell(s.left, 1, code, t))
  }

  /** Claim the right anchor and move it one cell outward. */
  function ClaimRight(t: Terrain, code: int, s: Trace): (s': Trace)
    requires WellFormed(t) && IsCode(code) && TraceInv(t, s)
    ensures Advances(t, s, s')
    ensures s' == s.(tally := s'.tally, right := s'.right)
    ensures Get(s'.tally.owner, t.shape, s.right.x, s.right.y) >= |s.budgets| + 1
  {
    var tally := AppendCurrPoint(s.tally, t.shape, s.right.x, s.right.y, |s.budgets|);
    s.(tally := tally, right := GetNextSectionCell(s.right, -1, code, t))
  }

  /** Every budget forced to the exhausted value. */
  function Exhaust(b: seq<real>): (r: seq<real>)
    ensures |r| == |b|
    ensures forall i :: 0 <= i < |r| ==> r[i] == ExhaustedArea
  {
    seq(|b|, i => ExhaustedArea)
  }

  /** An anchor sits at the fill level. */
  predicate AtFill(s: Trace)
  {
    s.left.elev == s.fill || s.right.elev == s.fill
  }

  /** The height by which one pass lowers every budget, per unit of cell
      dimension: zero when an anchor sits at the fill level, the depth below
      the fill level when one anchor is lower, and otherwise the rise of the
      fill level to the lower anchor times the elapsed-cell counter. */
  function Rise(s: Trace): (r: real)
    ensures AtFill(s) ==> r == 0.0
    ensures !AtFill(s) && (s.right.elev < s.fill || s.left.elev < s.fill) ==> r > 0.0
    ensures s.cellCount >= 0 ==> r >= 0.0
  {
    var L, R, fill := s.left.elev, s.right.elev, s.fill;
    if L == fill || R == fill then 0.0
    else if R < fill then fill - R
    else if L < fill then fill - L
    else
      var lower := if R <= L then R else L;
      assert s.cellCount >= 0 ==> (lower - fill) * s.cellCount as real >= 0.0;
      (lower - fill) * s.cellCount as real
  }

  /** The area one pass takes from every budget: nothing at the fill level,
      and never a negative amount when cell dimensions are not negative. */
  function Depletion(s: Trace, dim: real): (r: real)
    ensures AtFill(s) ==> r == 0.0
    ensures s.cellCount >= 0 && dim >= 0.0 ==> r >= 0.0
  {
    assert s.cellCount >= 0 && dim >= 0.0 ==> Rise(s) * dim >= 0.0;
    Rise(s) * dim
  }

  /** The baseline pass: the anchor at the fill level (the left one first)
      is claimed and moved outward. Nothing is consumed. */
  function ExtendBaseline(t: Terrain, code: int, s: Trace): (s': Trace)
    requires WellFormed(t) && IsCode(code) && TraceInv(t, s) && AtFill(s)
    ensures Advances(t, s, s')
    ensures s'.budgets == s.budgets && s'.fill == s.fill && s'.cellCount == s.cellCount + 1
  {
    var c := if s.left.elev == s.fill then ClaimLeft(t, code, s) else ClaimRight(t, code, s);
    c.(cellCount := c.cellCount + 1)
  }

  /** An anchor below the fill level (the right one first): the depth of
      the gap times the cell dimension is consumed, and the anchor is
      claimed and moved outward when the largest budget stays positive. */
  function FillBelow(t: Terrain, code: int, s: Trace, dim: real): (s': Trace)
    requires WellFormed(t) && IsCode(code) && TraceInv(t, s)
    requires !AtFill(s) && (s.right.elev < s.fill || s.left.elev < s.fill)
    ensures Advances(t, s, s')
    ensures s'.budgets == Consume(s.budgets, Depletion(s, dim))
    ensures s'.fill == s.fill && s'.cellCount == s.cellCount + 1
  {
    var rightLow := s.right.elev < s.fill;
    var depth := s.fill - (if rightLow then s.right.elev else s.left.elev);
    assert depth * dim == Depletion(s, dim);
    var b := Consume(s.budgets, depth * dim);
    var c :=
      if b[0] > 0.0 then
        (if rightLow then ClaimRight(t, code, s.(budgets := b)) else ClaimLeft(t, code, s.(budgets := b)))
      else s.(budgets := b);
    c.(cellCount := c.cellCount + 1)
  }

  /** Both anchors above the fill level: the fill level rises to the lower
      anchor, which consumes the rise times the width of the section so far.
      When the largest budget stays positive the lower anchor (both, when
      they are level) is claimed and moved outward. */
  function RaiseFill(t: Terrain, code: int, s: Trace, dim: real): (s': Trace)
    requires WellFormed(t) && IsCode(code) && TraceInv(t, s)
    requires s.right.elev > s.fill && s.left.elev > s.fill
    ensures Advances(t, s, s')
    ensures s'.budgets == Consume(s.budgets, Depletion(s, dim))
    ensures s'.fill >= s.fill && s'.cellCount >= s.cellCount
  {
    var L, R := s.left.elev, s.right.elev;
    var level := if R <= L then R else L;
    var b := Consume(s.budgets, (level - s.fill) * (dim * s.cellCount as real));
    assert (level - s.fill) * (dim * s.cellCount as real) == Depletion(s, dim);
    if R == L then
      if b[0] > 0.0 then
        var c := ClaimRight(t, code, ClaimLeft(t, code, s.(budgets := b, fill := R)));
        AdvancesTransitive(t, s, ClaimLeft(t, code, s.(budgets := b, fill := R)), c);
        c.(cellCount := c.cellCount + 2)
      else
        s.(budgets := b)
    else
      var c :=
        if b[0] <= 0.0 then s.(budgets := b)
        else if R > L then ClaimLeft(t, code, s.(budgets := b, fill := L))
        else ClaimRight(t, code, s.(budgets := b, fill := R));
      c.(cellCount := c.cellCount + 1)
  }

  /** The body of the tracer's loop before the edge test, in the source's
      branch order. A pass with an anchor at the fill level consumes nothing;
      every other pass lowers the budgets by `Rise(s)` cell dimensions. */
  function Pass(t: Terrain, code: int, s: Trace): (s': Trace)
    requires WellFormed(t) && IsCode(code) && TraceInv(t, s)
    ensures Advances(t, s, s')
    ensures AtFill(s) ==> s'.budgets == s.budgets
    ensures !AtFill(s) ==> s'.budgets == Consume(s.budgets, Depletion(s, CellDimension(code, t.cellWidth, t.cellDiagonal)))
    ensures s'.fill >= s.fill && s'.cellCount >= s.cellCount
  {
    var dim := CellDimension(code, t.cellWidth, t.cellDiagonal);
    if AtFill(s) then ExtendBaseline(t, code, s)
    else if s.right.elev < s.fill || s.left.elev < s.fill then
      var s' := FillBelow(t, code, s, dim);
      assert s'.budgets == Consume(s.budgets, Depletion(s, dim));
      s'
    else RaiseFill(t, code, s, dim)
  }

  /** One pass of the tracer's main loop: the branch, then the edge test,
      then the loop counter. */
  function TraceStep(t: Terrain, code: int, s: Trace): (s': Trace)
    requires WellFormed(t) && IsCode(code) && TraceInv(t, s)
    ensures Advances(t, s, s')
    ensures s'.count == s.count + 1
    ensures s'.left.elev == EdgeElevation || s'.right.elev == EdgeElevation ==>
              forall i :: 0 <= i < |s'.budgets| ==> s'.budgets[i] == ExhaustedArea
  {
    var s1 := Pass(t, code, s);
    var s2 :=
      if s1.left.elev == EdgeElevation || s1.right.elev == EdgeElevation then s1.(budgets := Exhaust(s1.budgets))
      else s1;
    s2.(count := s.count + 1)
  }

  /** The branch part of a pass lowers every kept budget by the same
      non-negative depletion (zero at the fill level), keeps the list
      largest-first and settled, and never lowers the fill level or the
      elapsed-cell counter. */
  lemma PassMonotone(t: Terrain, code: int, s: Trace)
    requires WellFormed(t) && IsCode(code) && TraceInv(t, s)
    requires t.cellWidth >= 0.0 && t.cellDiagonal >= 0.0
    requires NonIncreasing(s.budgets) && (forall i :: 0 <= i < |s.budgets| ==> s.budgets[i] >= 0.0)
    ensures var s1 := Pass(t, code, s);
            var d := Depletion(s, CellDimension(code, t.cellWidth, t.cellDiagonal));
            && d >= 0.0
            && |s1.budgets| <= |s.budgets|
            && (forall i :: 0 <= i < |s1.budgets| ==> s1.budgets[i] == s.budgets[i] - d)
            && NonIncreasing(s1.budgets) && Settled(s1.budgets)
  {
    var dim := CellDimension(code, t.cellWidth, t.cellDiagonal);
    if AtFill(s) {
      assert Rise(s) == 0.0;
      assert Depletion(s, dim) == 0.0;
    } else {
      ConsumeSorted(s.budgets, Depletion(s, dim));
    }
  }

  /** Within one pass no budget grows and the fill level does not fall.
      Every surviving budget is either forced to the exhausted value or
      lowered by `Rise(s)` cell dimensions, and `Rise(s)` is never negative.
      The budget list stays largest-first and the elapsed-cell counter never
      falls. */
  lemma TraceStepMonotone(t: Terrain, code: int, s: Trace)
    requires WellFormed(t) && IsCode(code) && TraceInv(t, s) && Proceeds(s)
    requires t.cellWidth >= 0.0 && t.cellDiagonal >= 0.0
    requires NonIncreasing(s.budgets) && Settled(s.budgets)
    ensures var s' := TraceStep(t, code, s);
            && Rise(s) >= 0.0
            && s'.fill >= s.fill
            && s'.cellCount >= s.cellCount
            && |s'.budgets| <= |s.budgets|
            && (forall i :: 0 <= i < |s'.budgets| ==> s'.budgets[i] <= s.budgets[i])
            && (forall i :: 0 <= i < |s'.budgets| ==>
                  s'.budgets[i] == ExhaustedArea
                  || s'.budgets[i] == s.budgets[i] - Depletion(s, CellDimension(code, t.cellWidth, t.cellDiagonal)))
            && NonIncreasing(s'.budgets) && Settled(s'.budgets)
  {
    PassMonotone(t, code, s);
    var s1 := Pass(t, code, s);
    var s' := TraceStep(t, code, s);
    if s1.left.elev == EdgeElevation || s1.right.elev == EdgeElevation {
      assert s'.budgets == Exhaust(s1.budgets);
    } else {
      assert s'.budgets == s1.budgets;
    }
  }

  /** `CalcCrossSection`: trace one cross-section of code `code` at stream
      cell `(row, col)` against a copy of the budget list `xsect`. Reading
      either seed elevation with an index NumPy rejects fails with
      `IndexError`; otherwise the result keeps the tallies' length, only
      raises cells of the ownership grid, and keeps the grid and the tallies
      in agreement. */
  method CalcCrossSection(t: Terrain, code: int, row: int, col: int, tally: Tally, xsect: seq<real>)
    returns (r: Result<Tally>)
    requires WellFormed(t) && IsCode(code)
    requires 1 <= |xsect| <= |tally.planvals|
    requires Fits(tally.owner, t.shape) && Bounded(tally.owner, Background, |tally.planvals| + 1)
    ensures r.Failure? <==> !InShape(t.shape, row + LeftSeed(code).dr, col + LeftSeed(code).dc) || !InShape(t.shape, row, col)
    ensures r.Failure? ==> r.fault == IndexError
    ensures r.Success? ==> |r.value.planvals| == |tally.planvals| && Fits(r.value.owner, t.shape)
    ensures r.Success? ==> Bounded(r.value.owner, Background, |tally.planvals| + 1)
    ensures r.Success? ==> Dominates(r.value.owner, tally.owner)
    ensures r.Success? && Consistent(tally.owner, t.shape, tally.planvals) ==>
              Consistent(r.value.owner, t.shape, r.value.planvals)
  {
    var seed := LeftSeed(code);
    var lx, ly := row + seed.dr, col + seed.dc;
    if !InShape(t.shape, lx, ly) || !InShape(t.shape, row, col) {
      return Failure(IndexError);
    }
    var leftElev := Get(t.elev, t.shape, lx, ly);
    var rightElev := Get(t.elev, t.shape, row, col);
    var s := Trace(xsect, rightElev, Cell(lx, ly, leftElev), Cell(row, col, rightElev), 0, tally, 0);
    while s.count < MaxIterations && !(s.budgets[0] < 0.0)
      invariant TraceInv(t, s)
      invariant |s.tally.planvals| == |tally.planvals|
      invariant Dominates(s.tally.owner, tally.owner)
      invariant Consistent(tally.owner, t.shape, tally.planvals) ==> Consistent(s.tally.owner, t.shape, s.tally.planvals)
      decreases MaxIterations - s.count
    {
      var next := TraceStep(t, code, s);
      DominatesTransitive(next.tally.owner, s.tally.owner, tally.owner);
      s := next;
    }
    return Success(s.tally);
  }
}

=== FILE: smoothing.dfy ===
/** The small helpers of the path-smoothing demonstration: the bounded
    window of recent path cells, and angle normalisation. Angles are reals
    and `pi` is a positive parameter standing for the constant. */
module PathSmoothing {

  /** `window_push`: append `point`, then drop the oldest element when the
      window has grown past `maxlen`. The new point is last unless nothing
      is kept; at most one element goes, and it is the oldest; the others
      keep their order; a window that fitted ends at the smaller of its
      grown length and `maxlen`. */
  function WindowPush<P>(window: seq<P>, point: P, maxlen: int): (r: seq<P>)
    ensures r != [] ==> r[|r| - 1] == point
    ensures r == [] <==> window == [] && maxlen < 1
    ensures |window| <= |r| <= |window| + 1
    ensures |r| == |window| && window != [] ==> r == window[1..] + [point]
    ensures |r| == |window| + 1 ==> r == window + [point]
    ensures |window| <= maxlen ==> |r| == if |window| + 1 < maxlen then |window| + 1 else maxlen
  {
    var grown := window + [point];
    if |grown| > maxlen then grown[1..] else grown
  }

  /** The last `n` elements of `s` (all of `s` when it is shorter). */
  function Tail<P>(s: seq<P>, n: nat): seq<P>
  {
    if |s| <= n then s else s[|s| - n..]
  }

  /** Push every point of `points`, oldest first. */
  function PushAll<P>(window: seq<P>, points: seq<P>, maxlen: int): seq<P>
    decreases |points|
  {
    if points == [] then window else PushAll(WindowPush(window, points[0], maxlen), points[1..], maxlen)
  }

  /** A window that fits its bound and receives any number of pushes holds
      exactly the `maxlen` most recent points. */
  lemma {:induction false} PushAllKeepsMostRecent<P>(window: seq<P>, points: seq<P>, maxlen: nat)
    requires maxlen >= 1 && |window| <= maxlen
    ensures PushAll(window, points, maxlen) == Tail(window + points, maxlen)
    decreases |points|
  {
    if points != [] {
      var p := points[0];
      var w' := WindowPush(window, p, maxlen);
      PushAllKeepsMostRecent(w', points[1..], maxlen);
      var all := window + points;
      assert all == window + [p] + points[1..];
      if |window| + 1 > maxlen {
        assert w' + points[1..] == all[1..];
        TailDropsFirst(all, maxlen);
      } else {
        assert w' + points[1..] == all;
      }
    }
  }

  /** Dropping the first element of a sequence longer than `n` does not
      change its last `n` elements. */
  lemma TailDropsFirst<P>(s: seq<P>, n: nat)
    requires |s| > n
    ensures Tail(s[1..], n) == Tail(s, n)
  {
    assert s[1..][|s| - 1 - n..] == s[|s| - n..];
  }

  /** `normalize_angle`: subtract `2 pi` while above `pi`, then add `2 pi`
      while at or below `-pi`. The result lies in `(-pi, pi]` and differs
      from `theta` by a whole number of turns. */
  method NormalizeAngle(theta: real, pi: real) returns (r: real, ghost turns: int)
    requires pi > 0.0
    ensures -pi < r <= pi
    ensures r == theta + 2.0 * pi * turns as real
  {
    r := theta;
    turns := 0;
    while r > pi
      invariant r == theta + Whole(pi, turns)
      decreases Turns(r - pi, pi)
    {
      TurnsStep(r - pi, pi);
      WholeStep(pi, turns - 1);
      r := r - 2.0 * pi;
      turns := turns - 1;
    }
    while r <= -pi
      invariant r <= pi
      invariant r == theta + Whole(pi, turns)
      decreases Turns(-pi - r, pi)
    {
      TurnsStep(-pi - r, pi);
      WholeStep(pi, turns);
      r := r + 2.0 * pi;
      turns := turns + 1;
    }
  }

  /** `n` whole turns of `2 pi`. */
  function Whole(pi: real, n: int): real
  {
    2.0 * pi * n as real
  }

  /** One more turn adds `2 pi`. */
  lemma WholeStep(pi: real, n: int)
    ensures Whole(pi, n + 1) == Whole(pi, n) + 2.0 * pi
  {
  }

  /** The whole turns of `2 pi` in `x`, rounded down. */
  function Turns(x: real, pi: real): int
    requires pi > 0.0
  {
    (x / (2.0 * pi)).Floor
  }

  /** Taking one turn off a non-negative amount lowers its whole turns by
      one, and they never go below zero. */
  lemma TurnsStep(x: real, pi: real)
    requires pi > 0.0 && x >= 0.0
    ensures Turns(x, pi) >= 0
    ensures Turns(x - 2.0 * pi, pi) == Turns(x, pi) - 1
  {
    var q := 2.0 * pi;
    var y := x / q;
    assert y * q == x;
    var z := (x - q) / q;
    assert z * q == x - q;
    assert (y - 1.0) * q == x - q;
    assert (z - (y - 1.0)) * q == 0.0;
    ZeroProduct(z - (y - 1.0), q);
    assert y >= 0.0;
  }

  /** Two angles in `(-pi, pi]` that differ by whole turns are equal: the
      normalised angle is the only representative of its class. */
  lemma RepresentativeUnique(x: real, y: real, n: int, pi: real)
    requires pi > 0.0
    requires -pi < x <= pi && -pi < y <= pi
    requires x == y + 2.0 * pi * n as real
    ensures x == y
  {
    if n >= 1 {
      PositiveProduct(n as real, 2.0 * pi);
    } else if n <= -1 {
      PositiveProduct(-n as real, 2.0 * pi);
    }
  }

  /** A product with a positive factor is zero only when the other is. */
  lemma ZeroProduct(a: real, q: real)
    requires q > 0.0 && a * q == 0.0
    ensures a == 0.0
  {
  }

  /** A product of two positives is positive. */
  lemma PositiveProduct(a: real, q: real)
    requires q > 0.0 && a > 0.0
    ensures a * q > 0.0
  {
  }

  /** `angle_diff`: the signed difference `a - b`, normalised. */
  method AngleDiff(a: real, b: real, pi: real) returns (d: real, ghost turns: int)
    requires pi > 0.0
    ensures -pi < d <= pi
    ensures d == a - b + 2.0 * pi * turns as real
  {
    d, turns := NormalizeAngle(a - b, pi);
  }
}

=== FILE: textlist.dfy ===
/** Reading a comma-separated list from a text file (`ConvertTxtToList` of
    the merge tool). The file is given as its lines, each with the newline
    the reader leaves on it. */
module TextLists {

  /** Drop every trailing `ch`. */
  function RStrip(s: string, ch: char): (r: string)
    ensures r <= s && |r| <= |s|
    ensures r == [] || r[|r| - 1] != ch
    ensures forall k :: |r| <= k < |s| ==> s[k] == ch
    decreases |s|
  {
    if s != [] && s[|s| - 1] == ch then RStrip(s[..|s| - 1], ch) else s
  }

  /** Drop every leading `ch`. */
  function LStrip(s: string, ch: char): (r: string)
    ensures |r| <= |s| && r == s[|s| - |r|..]
    ensures r == [] || r[0] != ch
    ensures forall k :: 0 <= k < |s| - |r| ==> s[k] == ch
    decreases |s|
  {
    if s != [] && s[0] == ch then LStrip(s[1..], ch) else s
  }

  /** Split at every `sep`: a string with `m` separators gives `m + 1`
      fields, empty ones included. */
  function Split(s: string, sep: char): (r: seq<string>)
    ensures |r| >= 1
    decreases |s|
  {
    if s == [] then [""]
    else if s[0] == sep then [""] + Split(s[1..], sep)
    else
      var rest := Split(s[1..], sep);
      [[s[0]] + rest[0]] + rest[1..]
  }

  /** Put fields back together with `sep` between them. */
  function Join(fields: seq<string>, sep: char): string
    requires |fields| >= 1
    decreases |fields|
  {
    if |fields| == 1 then fields[0] else fields[0] + [sep] + Join(fields[1..], sep)
  }

  /** The number of `sep` in `s`. */
  function Occurrences(s: string, sep: char): nat
  {
    if s == [] then 0 else (if s[0] == sep then 1 else 0) + Occurrences(s[1..], sep)
  }

  /** Splitting loses nothing: joining the fields gives back the string, no
      field holds the separator, and there is one field more than there are
      separators. */
  lemma {:induction false} SplitJoin(s: string, sep: char)
    ensures Join(Split(s, sep), sep) == s
    ensures forall k :: 0 <= k < |Split(s, sep)| ==> sep !in Split(s, sep)[k]
    ensures |Split(s, sep)| == Occurrences(s, sep) + 1
    decreases |s|
  {
    if s != [] {
      SplitJoin(s[1..], sep);
      var rest := Split(s[1..], sep);
      if s[0] == sep {
        assert Split(s, sep)[1..] == rest;
      } else {
        assert Split(s, sep)[1..] == rest[1..];
        if |rest| > 1 {
          assert rest[1..][0] == rest[1] && rest[1..][1..] == rest[2..];
          assert Join(rest, sep) == rest[0] + [sep] + Join(rest[1..], sep);
        }
        forall k | 0 <= k < |Split(s, sep)|
          ensures sep !in Split(s, sep)[k]
        {
          if k > 0 {
            assert Split(s, sep)[k] == rest[k];
          }
        }
      }
    }
  }

  /** Joining fields that hold no separator and splitting again gives the
      fields back. */
  lemma {:induction false} JoinSplit(fields: seq<string>, sep: char)
    requires |fields| >= 1
    requires forall k :: 0 <= k < |fields| ==> sep !in fields[k]
    ensures Split(Join(fields, sep), sep) == fields
    decreases |fields|, |fields[0]|
  {
    if fields[0] == [] {
      if |fields| > 1 {
        JoinSplit(fields[1..], sep);
        assert Join(fields, sep) == [sep] + Join(fields[1..], sep);
        assert Join(fields, sep)[1..] == Join(fields[1..], sep);
      }
    } else {
      var head := fields[0];
      var shorter := fields[0 := head[1..]];
      assert sep !in shorter[0] by {
        assert forall c :: c in head[1..] ==> c in head;
      }
      JoinSplit(shorter, sep);
      assert shorter[1..] == fields[1..];
      assert Join(fields, sep) == [head[0]] + Join(shorter, sep);
      assert Join(fields, sep)[1..] == Join(shorter, sep);
      assert [head[0]] + head[1..] == head;
    }
  }

  /** The fields of one line: the newline stripped, leading spaces stripped,
      then split on commas. */
  function Fields(line: string): seq<string>
  {
    Split(LStrip(RStrip(line, '\n'), ' '), ',')
  }

  /** `aline.find(',') != -1`. */
  predicate HasComma(line: string)
  {
    ',' in line
  }

  /** No line of `lines` holds a comma. */
  predicate NoCommaLine(lines: seq<string>)
  {
    forall k :: 0 <= k < |lines| ==> !HasComma(lines[k])
  }

  /** Line `k` is the last line of `lines` holding a comma. */
  predicate LastCommaLine(lines: seq<string>, k: int)
  {
    0 <= k < |lines| && HasComma(lines[k]) && forall j :: k < j < |lines| ==> !HasComma(lines[j])
  }

  /** The index of the last of the first `n` lines holding a comma, or -1
      when none does. */
  function LastCommaBefore(lines: seq<string>, n: nat): (k: int)
    requires n <= |lines|
    ensures -1 <= k < n
    ensures k >= 0 ==> HasComma(lines[k])
  {
    if n == 0 then -1 else if HasComma(lines[n - 1]) then n - 1 else LastCommaBefore(lines, n - 1)
  }

  /** The search from the end skips only comma-free lines. */
  lemma {:induction false} LastCommaBeforeSkips(lines: seq<string>, n: nat)
    requires n <= |lines|
    ensures forall j :: LastCommaBefore(lines, n) < j < n ==> !HasComma(lines[j])
  {
    if n > 0 && !HasComma(lines[n - 1]) {
      LastCommaBeforeSkips(lines, n - 1);
    }
  }

  /** The list a text file yields: the fields of its last line holding a
      comma, or `alist` unchanged when no line does. */
  method ConvertTxtToList(lines: seq<string>, alist: seq<string>) returns (r: seq<string>)
    ensures NoCommaLine(lines) ==> r == alist
    ensures forall k :: LastCommaLine(lines, k) ==> r == Fields(lines[k])
  {
    r := alist;
    for n := 0 to |lines|
      invariant LastCommaBefore(lines, n) < 0 ==> r == alist
      invariant LastCommaBefore(lines, n) >= 0 ==> r == Fields(lines[LastCommaBefore(lines, n)])
    {
      if HasComma(lines[n]) {
        var x := RStrip(lines[n], '\n');
        var z := LStrip(x, ' ');
        r := Split(z, ',');
      }
    }
    var last := LastCommaBefore(lines, |lines|);
    LastCommaBeforeSkips(lines, |lines|);
    LastLineWins(lines, last);
  }

  /** When `last` holds a comma (or is -1) and every line after it is
      comma-free, no other line is the last comma line. */
  lemma LastLineWins(lines: seq<string>, last: int)
    requires -1 <= last < |lines|
    requires last >= 0 ==> HasComma(lines[last])
    requires forall j :: last < j < |lines| ==> !HasComma(lines[j])
    ensures forall k :: LastCommaLine(lines, k) ==> k == last
  {
    forall k | LastCommaLine(lines, k)
      ensures k == last
    {
      assert !(last < k) && !(k < last);
    }
  }
}

=== FILE: walker.dfy ===
/** The stream walker of the inundation engine's main loop and the sweep
    between runs.

    A run starts at one stream cell with every budget of the volume
    scenarios active. At each stream cell the walker traces the
    cross-sections `TracedCodes` lists (and, for a diagonal flow code, one
    more at the checkerboard cell), turns the per-level tallies into the
    planimetric area each scenario still has left, drops at most one
    exhausted scenario from the tail, and then either stops or steps
    downstream and reads the next flow code. */
module Walker {
  import opened Grids
  import opened Directions
  import opened Ownership
  import opened Budgets
  import opened Faults
  import opened CrossSection

  /** After this many stream cells the walker stops on its own. */
  const MaxTraverse: nat := 9000000

  function Last<T>(s: seq<T>): T
    requires |s| >= 1
  {
    s[|s| - 1]
  }

  function Reverse<T>(s: seq<T>): (r: seq<T>)
    ensures |r| == |s|
    ensures forall i :: 0 <= i < |s| ==> r[i] == s[|s| - 1 - i]
  {
    seq(|s|, i requires 0 <= i < |s| => s[|s| - 1 - i])
  }

  /** The planimetric area of `cells` cells of width `w`. */
  function PlanArea(cells: int, w: real): real
  {
    cells as real * (w * w)
  }

  lemma PlanAreaMonotone(a: int, b: int, w: real)
    requires a <= b
    ensures PlanArea(a, w) <= PlanArea(b, w)
  {
    assert w * w >= 0.0;
    assert (b - a) as real * (w * w) >= 0.0;
  }

  /** The stream cell has a left seed and a stream cell NumPy can index for
      code `code`, so a cross-section can be traced there. */
  predicate Traceable(t: Terrain, code: int, row: int, col: int)
    requires IsCode(code)
  {
    InShape(t.shape, row, col) && InShape(t.shape, row + LeftSeed(code).dr, col + LeftSeed(code).dc)
  }

  /** Every cross-section the walker traces at stream cell `(row, col)` can be traced. */
  predicate CellTraceable(t: Terrain, code: int, row: int, col: int)
    requires IsCode(code)
  {
    && (forall k :: 0 <= k < |TracedCodes(code)| ==> Traceable(t, TracedCodes(code)[k], row, col))
    && (IsDiagonal(code) ==> Traceable(t, code, row + CheckerboardOffset(code).dr, col + CheckerboardOffset(code).dc))
  }

  /** Trace the cross-sections of `codes`, in order, at stream cell
      `(row, col)`, each against the same active budgets; stop with
      `IndexError` at the first one that reads outside the raster. */
  method TraceCodes(t: Terrain, codes: seq<int>, row: int, col: int, tally: Tally, xsect: seq<real>)
    returns (r: Result<Tally>)
    requires WellFormed(t) && forall k :: 0 <= k < |codes| ==> IsCode(codes[k])
    requires 1 <= |xsect| <= |tally.planvals|
    requires Fits(tally.owner, t.shape) && Bounded(tally.owner, Background, |tally.planvals| + 1)
    ensures r.Success? <==> forall k :: 0 <= k < |codes| ==> Traceable(t, codes[k], row, col)
    ensures r.Failure? ==> r.fault == IndexError
    ensures r.Success? ==> |r.value.planvals| == |tally.planvals| && Fits(r.value.owner, t.shape)
    ensures r.Success? ==> Bounded(r.value.owner, Background, |tally.planvals| + 1)
    ensures r.Success? ==> Dominates(r.value.owner, tally.owner)
    ensures r.Success? && Consistent(tally.owner, t.shape, tally.planvals) ==>
              Consistent(r.value.owner, t.shape, r.value.planvals)
  {
    var cur := tally;
    DominatesReflexive(tally.owner);
    for k := 0 to |codes|
      invariant |cur.planvals| == |tally.planvals| && Fits(cur.owner, t.shape)
      invariant Bounded(cur.owner, Background, |tally.planvals| + 1)
      invariant Dominates(cur.owner, tally.owner)
      invariant Consistent(tally.owner, t.shape, tally.planvals) ==> Consistent(cur.owner, t.shape, cur.planvals)
      invariant forall j :: 0 <= j < k ==> Traceable(t, codes[j], row, col)
    {
      var traced := CalcCrossSection(t, codes[k], row, col, cur, xsect);
      if traced.Failure? {
        return Failure(traced.fault);
      }
      DominatesTransitive(traced.value.owner, cur.owner, tally.owner);
      cur := traced.value;
    }
    return Success(cur);
  }

  /** All cross-sections of one stream cell: the codes of `TracedCodes` at
      the stream cell, then, for a diagonal code, the code itself at the
      checkerboard cell. The run fails with `IndexError` exactly when one of
      them reads outside the raster. */
  method TraceStreamCell(t: Terrain, code: int, row: int, col: int, tally: Tally, xsect: seq<real>)
    returns (r: Result<Tally>)
    requires WellFormed(t) && IsCode(code)
    requires 1 <= |xsect| <= |tally.planvals|
    requires Fits(tally.owner, t.shape) && Bounded(tally.owner, Background, |tally.planvals| + 1)
    ensures r.Success? <==> CellTraceable(t, code, row, col)
    ensures r.Failure? ==> r.fault == IndexError
    ensures r.Success? ==> |r.value.planvals| == |tally.planvals| && Fits(r.value.owner, t.shape)
    ensures r.Success? ==> Bounded(r.value.owner, Background, |tally.planvals| + 1)
    ensures r.Success? ==> Dominates(r.value.owner, tally.owner)
    ensures r.Success? && Consistent(tally.owner, t.shape, tally.planvals) ==>
              Consistent(r.value.owner, t.shape, r.value.planvals)
  {
    r := TraceCodes(t, TracedCodes(code), row, col, tally, xsect);
    if r.Success? && IsDiagonal(code) {
      var cur := r.value;
      var off := CheckerboardOffset(code);
      r := CalcCrossSection(t, code, row + off.dr, col + off.dc, cur, xsect);
      if r.Success? {
        DominatesTransitive(r.value.owner, cur.owner, tally.owner);
      }
    }
  }

  /** The planimetric area each active scenario has left: its planimetric
      area less the area of every cell claimed at its level or a smaller
      scenario's level. The tallies are reversed, summed as a running total,
      and the totals reversed back, so each scenario is charged the suffix
      sum of the tallies from its own level on. */
  method RemainingPlanArea(plan: seq<real>, planvals: seq<int>, w: real) returns (check: seq<real>)
    requires |plan| <= |planvals|
    ensures |check| == |plan|
    ensures forall i :: 0 <= i < |plan| ==> check[i] == plan[i] - PlanArea(Sum(planvals[i..]), w)
  {
    var n := |planvals|;
    var reversed := Reverse(planvals);
    var numz := 0;
    var running: seq<real> := [];
    for i := 0 to n
      invariant |running| == i
      invariant numz == Sum(planvals[n - i..])
      invariant forall k :: 0 <= k < i ==> running[k] == PlanArea(Sum(planvals[n - 1 - k..]), w)
    {
      assert planvals[n - 1 - i..][1..] == planvals[n - i..];
      numz := reversed[i] + numz;
      running := running + [numz as real * w * w];
    }
    var temp := Reverse(running);
    check := [];
    for i := 0 to |plan|
      invariant |check| == i
      invariant forall k :: 0 <= k < i ==> check[k] == plan[k] - PlanArea(Sum(planvals[k..]), w)
    {
      check := check + [plan[i] - temp[i]];
    }
  }

  /** With the grid and tallies in agreement, what a scenario has left is its
      planimetric area less the area of the cells claimed at its level or
      above. */
  lemma RemainingIsUnclaimedArea(owner: Grid<int>, sh: Shape, planvals: seq<int>, plan: seq<real>, check: seq<real>, w: real)
    requires Consistent(owner, sh, planvals)
    requires |check| == |plan| <= |planvals|
    requires forall i :: 0 <= i < |plan| ==> check[i] == plan[i] - PlanArea(Sum(planvals[i..]), w)
    ensures forall i :: 0 <= i < |plan| ==> check[i] == plan[i] - PlanArea(AtLeast(owner, i + 2), w)
  {
    forall i | 0 <= i < |plan|
      ensures check[i] == plan[i] - PlanArea(AtLeast(owner, i + 2), w)
    {
      SuffixIsAtLeast(owner, sh, planvals, i);
    }
  }

  /** The three parallel scenario lists the walker keeps. */
  datatype Scenarios = Scenarios(plan: seq<real>, xsect: seq<real>, check: seq<real>)

  /** When more than one scenario is active and some remaining area is
      negative, the last scenario is dropped from all three lists; at most
      one scenario goes per stream cell, whichever entry was negative. */
  function PruneOnce(sc: Scenarios): (r: Scenarios)
    requires 1 <= |sc.check| == |sc.plan| == |sc.xsect|
    ensures 1 <= |r.check| == |r.plan| == |r.xsect| <= |sc.plan|
    ensures r.plan == sc.plan[..|r.plan|] && r.xsect == sc.xsect[..|r.plan|] && r.check == sc.check[..|r.plan|]
    ensures |r.plan| == |sc.plan| - 1 <==> |sc.plan| > 1 && exists i :: 0 <= i < |sc.check| && sc.check[i] < 0.0
    ensures |r.plan| == |sc.plan| - 1 || r == sc
  {
    var n := |sc.check|;
    var negatives := if n > 1 then CountNegative(sc.check) else 0;
    NegativeCounted(sc.check);
    if negatives > 0 && n > 1 then
      Scenarios(sc.plan[..n - 1], sc.xsect[..n - 1], sc.check[..n - 1])
    else
      sc
  }

  lemma {:induction false} NegativeCounted(b: seq<real>)
    ensures CountNegative(b) > 0 <==> exists i :: 0 <= i < |b| && b[i] < 0.0
  {
    if b != [] {
      NegativeCounted(b[1..]);
      if CountNegative(b[1..]) > 0 {
        var i :| 0 <= i < |b[1..]| && b[1..][i] < 0.0;
        assert b[i + 1] < 0.0;
      }
      if exists i :: 0 <= i < |b| && b[i] < 0.0 {
        var i :| 0 <= i < |b| && b[i] < 0.0;
        if i > 0 {
          assert b[1..][i - 1] < 0.0;
        }
      }
    }
  }

  /** Why a run ended: the largest scenario ran out of planimetric area, or
      the walker reached its traverse limit. */
  datatype StopReason = PlanExhausted | TraverseLimit

  /** A finished run: the tallies and ownership grid, the remaining
      planimetric areas computed at each stream cell (before pruning), why
      the run stopped, and how many stream cells it traversed. */
  datatype Run = Run(tally: Tally, log: seq<seq<real>>, reason: StopReason, traversed: nat)

  /** The remaining areas never grow from one stream cell to the next, for
      every scenario still active at the later cell. */
  predicate LogNonIncreasing(log: seq<seq<real>>)
  {
    forall k :: 0 <= k < |log| - 1 ==> NoneAbove(log[k + 1], log[k])
  }

  /** No entry of `a` exceeds the entry of `b` at the same index. */
  predicate NoneAbove(a: seq<real>, b: seq<real>)
  {
    forall i :: 0 <= i < |a| && i < |b| ==> a[i] <= b[i]
  }

  /** Each record keeps every scenario of the record after it, and at most
      one fewer; every record has at least one scenario. */
  predicate LogShrinksByOne(log: seq<seq<real>>, n: nat)
  {
    && (forall k :: 0 <= k < |log| ==> 1 <= |log[k]| <= n)
    && (forall k :: 0 <= k < |log| - 1 ==> |log[k]| - 1 <= |log[k + 1]| <= |log[k]|)
  }

  /** The walker's loop variables: the stream cell and its flow code, the
      tallies and ownership grid, the active scenarios, the records written
      so far (one per traversed cell), the stop flag and why it was set. */
  datatype Walk = Walk(row: int, col: int, code: int, tally: Tally, sc: Scenarios,
                       log: seq<seq<real>>, stop: bool, reason: StopReason)

  /** The facts that hold at the top of the walker's loop. `start` is the
      run's initial tally and `seen` the ownership grid the last record was
      computed from. */
  predicate WalkInv(t: Terrain, start: Tally, masterPlan: seq<real>, masterXsect: seq<real>, w: Walk, seen: Grid<int>)
  {
    && 1 <= |w.sc.plan| == |w.sc.xsect| == |w.sc.check| <= |masterPlan| == |masterXsect|
    && w.sc.plan == masterPlan[..|w.sc.plan|] && w.sc.xsect == masterXsect[..|w.sc.plan|]
    && |w.tally.planvals| == |start.planvals| == |masterPlan|
    && Consistent(w.tally.owner, t.shape, w.tally.planvals)
    && Dominates(w.tally.owner, start.owner)
    && |w.log| <= MaxTraverse + 1
    && (!w.stop ==> |w.log| <= MaxTraverse)
    && LogShrinksByOne(w.log, |masterPlan|) && LogNonIncreasing(w.log)
    && (forall k :: 0 <= k < |w.log| - 1 ==> w.log[k][0] >= 0.0)
    && (|w.log| >= 1 ==> Recorded(w, seen, masterPlan, t.cellWidth))
    && (w.stop ==> Stopped(w))
  }

  /** The last record was computed from `seen`, which the current grid
      dominates, and the active scenarios are those it kept. */
  predicate Recorded(w: Walk, seen: Grid<int>, masterPlan: seq<real>, cellWidth: real)
    requires |w.log| >= 1 && 1 <= |Last(w.log)| <= |masterPlan|
  {
    && |Last(w.log)| - 1 <= |w.sc.plan| <= |Last(w.log)|
    && Dominates(w.tally.owner, seen)
    && (forall i :: 0 <= i < |Last(w.log)| ==>
          Last(w.log)[i] == masterPlan[i] - PlanArea(AtLeast(seen, i + 2), cellWidth))
    && (!w.stop ==> Last(w.log)[0] >= 0.0)
  }

  /** A stopped walk has a record, and the reason it gives matches it. */
  predicate Stopped(w: Walk)
  {
    && |w.log| >= 1 && |Last(w.log)| >= 1
    && (w.reason == PlanExhausted <==> Last(w.log)[0] < 0.0)
    && (w.reason == TraverseLimit ==> |w.log| == MaxTraverse + 1)
  }

  /** Trace every cross-section of the current stream cell and compute what
      each active scenario has left, in terms of the grid after tracing. */
  method Survey(t: Terrain, code: int, row: int, col: int, tally: Tally, sc: Scenarios)
    returns (r: Result<Tally>, check: seq<real>)
    requires WellFormed(t) && IsCode(code)
    requires 1 <= |sc.xsect| == |sc.plan| <= |tally.planvals|
    requires Consistent(tally.owner, t.shape, tally.planvals)
    ensures r.Success? <==> CellTraceable(t, code, row, col)
    ensures r.Failure? ==> r.fault == IndexError
    ensures r.Success? ==> |r.value.planvals| == |tally.planvals|
    ensures r.Success? ==> Consistent(r.value.owner, t.shape, r.value.planvals)
    ensures r.Success? ==> Dominates(r.value.owner, tally.owner)
    ensures r.Success? ==> |check| == |sc.plan|
    ensures r.Success? ==> forall i :: 0 <= i < |sc.plan| ==>
              check[i] == sc.plan[i] - PlanArea(AtLeast(r.value.owner, i + 2), t.cellWidth)
  {
    r := TraceStreamCell(t, code, row, col, tally, sc.xsect);
    check := [];
    if r.Success? {
      check := RemainingPlanArea(sc.plan, r.value.planvals, t.cellWidth);
      RemainingIsUnclaimedArea(r.value.owner, t.shape, r.value.planvals, sc.plan, check, t.cellWidth);
    }
  }

  /** After the record: prune, decide whether to stop, and step downstream
      while under the traverse limit. */
  function Conclude(w: Walk, check: seq<real>): (w': Walk)
    requires IsCode(w.code) && 1 <= |check| == |w.sc.plan| == |w.sc.xsect|
    requires |w.log| <= MaxTraverse
    ensures w'.sc == PruneOnce(w.sc.(check := check))
    ensures w'.stop <==> w'.sc.check[0] < 0.0 || |w.log| == MaxTraverse
    ensures w'.stop ==> (w'.reason == PlanExhausted <==> w'.sc.check[0] < 0.0)
    ensures w'.log == w.log && w'.tally == w.tally
    ensures |w.log| < MaxTraverse ==> w'.row == w.row + Downstream(w.code).dr && w'.col == w.col + Downstream(w.code).dc
  {
    var sc := PruneOnce(w.sc.(check := check));
    var exhausted := sc.check[0] < 0.0;
    var reason := if exhausted then PlanExhausted else TraverseLimit;
    if |w.log| < MaxTraverse then
      var move := Downstream(w.code);
      w.(sc := sc, stop := exhausted, reason := reason, row := w.row + move.dr, col := w.col + move.dc)
    else
      w.(sc := sc, stop := true, reason := reason)
  }

  /** One pass of the walker's loop: survey the current cell, record what is
      left, conclude, then read the flow code of the (possibly new) cell. */
  method VisitStreamCell(t: Terrain, flow: Grid<int>, start: Tally, masterPlan: seq<real>, masterXsect: seq<real>,
                         w: Walk, ghost seen: Grid<int>)
    returns (r: Result<Walk>, ghost seen': Grid<int>)
    requires WellFormed(t) && Fits(flow, t.shape)
    requires WalkInv(t, start, masterPlan, masterXsect, w, seen) && !w.stop
    ensures r.Success? ==> WalkInv(t, start, masterPlan, masterXsect, r.value, seen')
    ensures r.Success? ==> |r.value.log| == |w.log| + 1
    ensures r.Success? ==> r.value.log[..|w.log|] == w.log
    ensures !IsCode(w.code) ==> r == Failure(BadDirection(w.code))
    ensures r.Success? ==> IsCode(w.code) && CellTraceable(t, w.code, w.row, w.col)
    ensures r.Success? ==> seen' == r.value.tally.owner
    ensures r == Failure(ClosedFileWrite) ==> |w.log| == MaxTraverse
    ensures r.Success? && |w.log| < MaxTraverse ==>
              r.value.row == w.row + Downstream(w.code).dr && r.value.col == w.col + Downstream(w.code).dc
    ensures r.Success? && |w.log| == MaxTraverse ==> r.value.row == w.row && r.value.col == w.col
    ensures r.Success? ==> InShape(t.shape, r.value.row, r.value.col)
    ensures r.Success? ==> r.value.code == Get(flow, t.shape, r.value.row, r.value.col)
  {
    seen' := seen;
    if !IsCode(w.code) {
      return Failure(BadDirection(w.code)), seen';
    }
    var traced, check := Survey(t, w.code, w.row, w.col, w.tally, w.sc);
    if traced.Failure? {
      return Failure(traced.fault), seen';
    }
    var cur := traced.value;
    var w' := Conclude(w.(tally := cur), check).(log := w.log + [check]);
    if |w.log| == MaxTraverse && w'.sc.check[0] < 0.0 {
      // The exhausted branch has already closed the points file, and the
      // traverse-limit branch writes to it again.
      return Failure(ClosedFileWrite), cur.owner;
    }
    if !InShape(t.shape, w'.row, w'.col) {
      return Failure(IndexError), cur.owner;
    }
    var next := w'.(code := Get(flow, t.shape, w'.row, w'.col));
    VisitKeepsInvariant(t, start, masterPlan, masterXsect, w, seen, cur, check, next);
    return Success(next), cur.owner;
  }

  /** A pass that traced the cell into `cur` and recorded `check` keeps the
      walker's invariant, with the grid after tracing as the new `seen`. */
  lemma VisitKeepsInvariant(t: Terrain, start: Tally, masterPlan: seq<real>, masterXsect: seq<real>,
                            w: Walk, seen: Grid<int>, cur: Tally, check: seq<real>, next: Walk)
    requires WalkInv(t, start, masterPlan, masterXsect, w, seen) && !w.stop && IsCode(w.code)
    requires |cur.planvals| == |w.tally.planvals| && Consistent(cur.owner, t.shape, cur.planvals)
    requires Dominates(cur.owner, w.tally.owner)
    requires |check| == |w.sc.plan|
    requires forall i :: 0 <= i < |w.sc.plan| ==>
               check[i] == w.sc.plan[i] - PlanArea(AtLeast(cur.owner, i + 2), t.cellWidth)
    requires next == Conclude(w.(tally := cur), check).(log := w.log + [check], code := next.code)
    ensures WalkInv(t, start, masterPlan, masterXsect, next, cur.owner)
  {
    DominatesTransitive(cur.owner, w.tally.owner, start.owner);
    DominatesReflexive(cur.owner);
    LogStep(w.log, check, seen, cur.owner, masterPlan, w.sc.plan, t.cellWidth);
    LogExtends(w.log, check, |masterPlan|);
    assert Last(next.log) == check;
    assert next.sc.check == check[..|next.sc.plan|];
  }

  /** Appending a record with at most one scenario fewer than the last one
      keeps the log's shape, and a run that went on had a non-negative
      largest remaining area at the last record. */
  lemma LogExtends(log: seq<seq<real>>, check: seq<real>, n: nat)
    requires LogShrinksByOne(log, n) && forall k :: 0 <= k < |log| - 1 ==> log[k][0] >= 0.0
    requires 1 <= |check| <= n
    requires |log| >= 1 ==> |Last(log)| - 1 <= |check| <= |Last(log)| && Last(log)[0] >= 0.0
    ensures LogShrinksByOne(log + [check], n)
    ensures forall k :: 0 <= k < |log| ==> (log + [check])[k][0] >= 0.0
  {
    var log' := log + [check];
    forall k | 0 <= k < |log'| - 1
      ensures |log'[k]| - 1 <= |log'[k + 1]| <= |log'[k]|
    {
      if k < |log| - 1 {
        assert log'[k] == log[k] && log'[k + 1] == log[k + 1];
      }
    }
  }

  /** The flow code at a stream cell NumPy can index. */
  function FlowAt(t: Terrain, flow: Grid<int>, cell: (int, int)): int
    requires Fits(flow, t.shape) && InShape(t.shape, cell.0, cell.1)
  {
    Get(flow, t.shape, cell.0, cell.1)
  }

  /** `path` is a walk along the flow grid: every cell can be indexed,
      holds one of the eight codes and had all its cross-sections traced,
      and each cell is the downstream neighbour of the one before. */
  predicate FlowPath(t: Terrain, flow: Grid<int>, path: seq<(int, int)>)
    requires Fits(flow, t.shape)
  {
    && (forall k :: 0 <= k < |path| ==>
          InShape(t.shape, path[k].0, path[k].1)
          && IsCode(FlowAt(t, flow, path[k]))
          && CellTraceable(t, FlowAt(t, flow, path[k]), path[k].0, path[k].1))
    && (forall k :: 0 <= k < |path| - 1 ==>
          InShape(t.shape, path[k].0, path[k].1) && IsCode(FlowAt(t, flow, path[k]))
          && path[k + 1] == StepFrom(t, flow, path[k]))
  }

  /** The cell after `cell` along the flow grid. */
  function StepFrom(t: Terrain, flow: Grid<int>, cell: (int, int)): (next: (int, int))
    requires Fits(flow, t.shape) && InShape(t.shape, cell.0, cell.1) && IsCode(FlowAt(t, flow, cell))
    ensures next != cell
  {
    (cell.0 + Downstream(FlowAt(t, flow, cell)).dr, cell.1 + Downstream(FlowAt(t, flow, cell)).dc)
  }

  /** `path` lists the cells the walk has traced, from the start cell along
      the flow grid, and the walk stands on the cell downstream of the last
      one unless it has stopped. */
  predicate OnFlowPath(t: Terrain, flow: Grid<int>, startRow: int, startCol: int, w: Walk, path: seq<(int, int)>)
    requires Fits(flow, t.shape)
  {
    && InShape(t.shape, w.row, w.col) && w.code == FlowAt(t, flow, (w.row, w.col))
    && |path| == |w.log| && FlowPath(t, flow, path)
    && (|path| == 0 ==> (w.row, w.col) == (startRow, startCol))
    && (|path| >= 1 ==> path[0] == (startRow, startCol))
    && (|path| >= 1 && !w.stop ==> (w.row, w.col) == StepFrom(t, flow, Last(path)))
  }

  /** One visit that moves the walk downstream, or stops it, extends its path by the cell it traced. */
  lemma OnFlowPathStep(t: Terrain, flow: Grid<int>, startRow: int, startCol: int,
                       w: Walk, path: seq<(int, int)>, w': Walk)
    requires Fits(flow, t.shape) && OnFlowPath(t, flow, startRow, startCol, w, path) && !w.stop
    requires IsCode(w.code) && CellTraceable(t, w.code, w.row, w.col)
    requires |w'.log| == |w.log| + 1
    requires InShape(t.shape, w'.row, w'.col) && w'.code == FlowAt(t, flow, (w'.row, w'.col))
    requires !w'.stop ==> w'.row == w.row + Downstream(w.code).dr && w'.col == w.col + Downstream(w.code).dc
    ensures OnFlowPath(t, flow, startRow, startCol, w', path + [(w.row, w.col)])
  {
  }

  /** Walk one stream from `(startRow, startCol)`. The flow code is read from
      `flow` at every cell; a code that is not one of the eight fails with
      `BadDirection` (the tracer has no left seed for it), a read NumPy
      rejects fails with `IndexError`, and a pass that reaches the traverse
      limit with the largest scenario exhausted fails with
      `ClosedFileWrite`. A successful run keeps the grid and
      tallies in agreement and only raises cells; its records shrink by at
      most one scenario each and never grow entrywise; the largest
      scenario's remaining area was not negative at any cell but possibly
      the last, and it is negative there exactly when the run ended for that
      reason. The last record is each scenario's planimetric area less the
      area of the cells the finished grid holds at its level or above. */
  method WalkStream(t: Terrain, flow: Grid<int>, startRow: int, startCol: int, tally: Tally,
                    masterPlan: seq<real>, masterXsect: seq<real>)
    returns (r: Result<Run>, ghost path: seq<(int, int)>)
    requires WellFormed(t) && Fits(flow, t.shape)
    requires 1 <= |masterPlan| && |masterXsect| == |masterPlan| && |tally.planvals| == |masterPlan|
    requires Consistent(tally.owner, t.shape, tally.planvals)
    ensures r.Success? ==> |r.value.tally.planvals| == |tally.planvals|
    ensures r.Success? ==> Consistent(r.value.tally.owner, t.shape, r.value.tally.planvals)
    ensures r.Success? ==> Dominates(r.value.tally.owner, tally.owner)
    ensures r.Success? ==> 1 <= r.value.traversed == |r.value.log| <= MaxTraverse + 1
    ensures r.Success? ==> LogShrinksByOne(r.value.log, |masterPlan|) && LogNonIncreasing(r.value.log)
    ensures r.Success? ==> forall k :: 0 <= k < |r.value.log| - 1 ==> r.value.log[k][0] >= 0.0
    ensures r.Success? ==> (r.value.reason == PlanExhausted <==> Last(r.value.log)[0] < 0.0)
    ensures r.Success? && r.value.reason == TraverseLimit ==> r.value.traversed == MaxTraverse + 1
    ensures r.Success? ==> forall i :: 0 <= i < |Last(r.value.log)| ==>
              Last(r.value.log)[i] == masterPlan[i] - PlanArea(AtLeast(r.value.tally.owner, i + 2), t.cellWidth)
    ensures r.Success? ==> |path| == |r.value.log| && path[0] == (startRow, startCol)
    ensures r.Success? ==> FlowPath(t, flow, path)
  {
    path := [];
    if !InShape(t.shape, startRow, startCol) {
      return Failure(IndexError), path;
    }
    var w := Walk(startRow, startCol, Get(flow, t.shape, startRow, startCol), tally,
                  Scenarios(masterPlan, masterXsect, masterPlan), [], false, TraverseLimit);
    ghost var seen := tally.owner;
    DominatesReflexive(tally.owner);
    while !w.stop
      invariant WalkInv(t, tally, masterPlan, masterXsect, w, seen)
      invariant |w.log| >= 1 ==> seen == w.tally.owner
      invariant OnFlowPath(t, flow, startRow, startCol, w, path)
      decreases MaxTraverse + 1 - |w.log|
    {
      var next;
      next, seen := VisitStreamCell(t, flow, tally, masterPlan, masterXsect, w, seen);
      if next.Failure? {
        return Failure(next.fault), path;
      }
      OnFlowPathStep(t, flow, startRow, startCol, w, path, next.value);
      path := path + [(w.row, w.col)];
      w := next.value;
    }
    return Success(Run(w.tally, w.log, w.reason, |w.log|)), path;
  }

  /** Appending the record of the next stream cell keeps the log
      non-increasing: the new record charges each scenario for the cells of
      a grid that dominates the one the previous record was taken from. */
  lemma LogStep(log: seq<seq<real>>, check: seq<real>, seen: Grid<int>, owner: Grid<int>,
                masterPlan: seq<real>, plan: seq<real>, w: real)
    requires LogNonIncreasing(log) && LogShrinksByOne(log, |masterPlan|)
    requires |check| == |plan| <= |masterPlan| && plan == masterPlan[..|plan|]
    requires forall i :: 0 <= i < |plan| ==> check[i] == plan[i] - PlanArea(AtLeast(owner, i + 2), w)
    requires |log| >= 1 ==> Dominates(owner, seen)
    requires |log| >= 1 ==> forall i :: 0 <= i < |Last(log)| ==>
               Last(log)[i] == masterPlan[i] - PlanArea(AtLeast(seen, i + 2), w)
    ensures LogNonIncreasing(log + [check])
  {
    var log' := log + [check];
    forall k | 0 <= k < |log'| - 1
      ensures NoneAbove(log'[k + 1], log'[k])
    {
      if k == |log| - 1 {
        forall i | 0 <= i < |check| && i < |Last(log)|
          ensures check[i] <= Last(log)[i]
        {
          AtLeastMonotone(owner, seen, i + 2);
          PlanAreaMonotone(AtLeast(seen, i + 2), AtLeast(owner, i + 2), w);
        }
      } else {
        assert log'[k] == log[k] && log'[k + 1] == log[k + 1];
      }
    }
  }

  /** The runs of one invocation, one per stream start cell, in order. Each
      run starts from an all-background ownership grid and all-zero tallies;
      the grid a run produces is saved, then swept back to background for
      the next run. The tracer's window is the whole raster, as the program
      sets it. Every saved grid holds only background and claim levels
      `2 .. |masterPlan| + 1`. A failing run ends the invocation, and the
      grids of the runs before it stay saved. */
  method InundateAll(t: Terrain, flow: Grid<int>, starts: seq<(int, int)>, owner: Grid<int>,
                     masterPlan: seq<real>, masterXsect: seq<real>)
    returns (saved: seq<Grid<int>>, outcome: Result<()>)
    requires WellFormed(t) && Fits(flow, t.shape) && t.window == FullWindow(t.shape)
    requires Fits(owner, t.shape) && Uniform(owner, Background)
    requires 1 <= |masterPlan| && |masterXsect| == |masterPlan|
    ensures outcome.Success? ==> |saved| == |starts|
    ensures outcome.Failure? ==> |saved| < |starts|
    ensures forall k :: 0 <= k < |saved| ==>
              Fits(saved[k], t.shape) && Bounded(saved[k], Background, |masterPlan| + 1)
  {
    var n := |masterPlan|;
    var b := owner;
    saved := [];
    for k := 0 to |starts|
      invariant Fits(b, t.shape) && Uniform(b, Background)
      invariant |saved| == k
      invariant forall j :: 0 <= j < k ==> Fits(saved[j], t.shape) && Bounded(saved[j], Background, n + 1)
    {
      var planvals := seq(n, _ => 0);
      FreshConsistent(b, t.shape, n);
      var run, path := WalkStream(t, flow, starts[k].0, starts[k].1, Tally(planvals, b), masterPlan, masterXsect);
      if run.Failure? {
        return saved, Failure(run.fault);
      }
      var grid := run.value.tally.owner;
      saved := saved + [grid];
      ResetStartsFresh(grid, t.shape, n);
      b := ResetOwnership(grid);
    }
    return saved, Success(());
  }
}
